=== FILE: README.md ===
# homily, modelled in Dafny

homily is a terminal podcast client. It keeps a list of subscribed feeds,
each with its episodes sorted newest first. It shows one of five views
(Feeds, Episodes, Headers, Downloads, Log) as a selectable list with a
cursor. Downloads run in the background and report back over a message
channel to a single event loop.

This project models that loop and the pieces it is built from:

- `text.dfy` (module `Text`): decimal rendering, substring search, ASCII
  lower-casing, and the character truncation and padding used for display.
- `general.dfy` (module `General`, the `general` module of `src/lib.rs`):
  the entities as values.
  - The entities are `Episode`, `Feed`, `Download`, `Header`, `Message`, `Thing`
    and the cursor list `ThingList`.
  - The functions cover the cyclic cursor move, `bytes_pretty`, file names
    and save paths, `get_download` and `check_episodes_downloaded`.
  - They also cover the bold-style rules, display rows, the width
    truncation of `crossterm_styles`, and the scrolling window of
    `ThingList::draw`.
- `keymap.dfy`: the input events of the two terminal libraries (modules
  `Tuikit` and `Crossterm`), and the two decoders into commands (module
  `Keymap`).
- `ui_crossterm.dfy` (module `UiCrossterm`): the visible-row window and
  row painting of the crossterm adapter, and its status line.
- `store.dfy` (module `Store`): the feed store of `src/main.rs`.
  - It holds the episode comparator and the sort it drives.
  - `update_feed` becomes both a specification function `Reloaded` and a
    method `UpdateFeed` proved equal to it.
  - `load_feeds` is modelled the same way.
- `view_machine.dfy` (module `ViewMachine`): the loop's variables as one
  `State` value.
  - Its transition functions cover the key arm, each message of the
    drain arm, the status closure and one whole pass of the loop.
  - Lemmas state what each command and message does.
- `event_loop.dfy` (module `EventLoop`): the same loop as the program runs
  it. A class `App` has one field per loop variable. Each arm is a method
  that updates those fields in place, proved to match the transition
  function of `ViewMachine`.

The file system appears as a parameter `Env`:
- the configuration directory;
- the parsed feed list;
- a function from a path to the episodes parsed from the RSS file there (or
  none, when the file is missing or unparsable);
- a function telling whether a path exists.

Background work (header probes, downloads, batch refreshes) is recorded as
a queued `Task` instead of being run. Its results come back as the messages
the drain arm handles.

Where the documented behaviour and the code differ, the model follows the
code:
- PageUp and PageDown are decoded but fall into the default arm of the key
  match (`src/main.rs:260`). They move nothing and clear the repaint flag.
- The key arm does not guard empty lists. Up and Down on an empty list
  divide by zero in `rem_euclid`, End underflows `len() - 1`, and
  `current()` indexes out of range. These inputs are preconditions
  (`ViewMachine.KeyDefined`) rather than no-ops.
- The comparator returns `Greater` whenever either episode lacks a date,
  whichever side it is on. The model reproduces this, and
  `Store.UndatedComparesGreaterBothWays` states it.
- The message the batch refresh sends when it finishes is `FeedUpdated`.
  It reloads every feed from disk.
- The Headers key switches to the Headers view at once, before the probe
  has answered (`src/main.rs:226`).

## Model

| member | source | states |
|---|---|---|
| Text.Truncate | src/lib.rs:33-36 | the result is the prefix of the text of length min(text length, limit) |
| Text.PadRight | src/ui_crossterm.rs:82 | the text is kept as a prefix and padded with spaces to the width |
| Text.Lower | src/lib.rs:148 | same length, each character lower-cased |
| Text.ContainsIffOccurs | src/lib.rs:148 | the recursive substring test holds exactly when the pattern occurs at some index |
| Text.ParseNatToString | src/lib.rs:326-328 | the decimal digits written for a count read back as that count |
| General.ThingList.Current | src/lib.rs:246-248 | the current item is an element of the list, and the cursor must be in range |
| General.ThingList.ShiftIndex | src/lib.rs:250-253 | items unchanged, the new cursor is in range and congruent to cursor + offset modulo the length |
| General.EmptyList | src/lib.rs:262-266 | the default list is empty with cursor 0 and has no current item |
| General.EqualityIgnoresCursor | src/lib.rs:256-260 | list equality compares items only and ignores both cursors |
| General.NavigateIsCumulativeOffset | src/lib.rs:250-253 | after any sequence of moves the cursor equals the start plus the sum of offsets, modulo the length |
| General.BytesPrettyReadsBack | src/lib.rs:324-330 | the rendered byte count reads back as an interval holding the count, one byte wide below 1000, 1000 wide below a million, 100000 wide above |
| General.BytesPretty | src/lib.rs:324-330 | the text ends in M exactly from a million bytes and in K exactly from 1000 below a million; below 1000 it is plain digits |
| General.FileNameAfterSeparator | src/lib.rs:72 | joining onto a directory ending in a separator keeps the final file name |
| General.PathFileName | src/lib.rs:233 | the file name shown for a path contains no '/' |
| General.FileNameIsLastComponent | src/lib.rs:233 | the file name is the suffix of the path after its last '/', or the whole path when there is none |
| General.JoinPath | src/lib.rs:72 | the joined path has the joined file's final name |
| General.JoinPathShape | src/lib.rs:72 | an absolute path replaces the base; a relative one is the base, a '/' unless the base is empty or ends in one, then the path |
| General.EpisodeFilename | src/lib.rs:171-173 | the episode name with every '/' replaced by '_', then ".mp3", containing no '/' |
| General.EpisodeSavePath | src/lib.rs:181-183 | the feed's save folder, '/', then exactly the episode's file name |
| General.FeedSavePath | src/lib.rs:134-136 | the feed folder followed by ".rss" |
| General.GetDownload | src/lib.rs:68-77 | url copied, counters zero, no success message; path is the save path, joined onto the prefix when there is one |
| General.FeedDownload | src/lib.rs:129-136 | a feed's download: its url, counters zero, no success message, its `.rss` save path joined onto the prefix when there is one |
| General.EpisodeDownload | src/lib.rs:176-183 | an episode's download: its enclosure url, counters zero, no success message, its save path joined onto the prefix when there is one |
| General.FlagAll | src/lib.rs:123-125 | each episode's flag is replaced by whether its save path exists, nothing else changes |
| General.Recheck | src/lib.rs:122-126 | feed fields, cursor and episode order kept; only the downloaded flags change, to whether each save path exists |
| General.CheckEpisodesDownloaded | src/lib.rs:122-126 | the loop over the episodes computes exactly the recheck |
| General.RecheckIdempotent | src/lib.rs:122-126 | rechecking twice is the same as rechecking once |
| General.FeedStyleBold | src/lib.rs:145-155 | a feed is bold iff it has a first episode whose lower-cased name does not contain "teaser" and that is not downloaded |
| General.EpisodeStyle | src/lib.rs:196-204 | an episode is bold iff it is downloaded |
| General.FeedTextLayout | src/lib.rs:139-143 | a feed row is its name, " (", its folder and ")" |
| General.EpisodeTextLayout | src/lib.rs:186-194 | an episode row is its name, a space, then "date unknown" or the date's decimal digits, which read back as the date |
| General.HeaderTextLayout | src/lib.rs:214-218 | a header row is its name, ": " and its value |
| General.DownloadTextLayout | src/lib.rs:231-235 | a download row is the pretty byte count, a space, and the path's file name |
| General.StylesAfterRecheck | src/lib.rs:145-204 | after a recheck an episode is bold iff its file exists; a feed is bold iff it has a first episode whose lower-cased name does not contain "teaser" and whose file does not exist |
| General.GetThings | src/lib.rs:310-313 | one display row per item, in order |
| General.CrosstermStyles | src/lib.rs:31-42 | the text is a prefix of the display text no longer than the limit, kept whole when it fits; bold iff the item's style is bold |
| General.DrawWindow | src/lib.rs:270-276 | nothing is drawn for an empty list; otherwise min(height, length) rows, cursor visible, when scrolled the window ends just after the cursor, and with the cursor past the list it ends at the list's end |
| Keymap.FromTuikitEvent | src/keymap.rs:26-49 | 'q' and ESC quit, resizes pass through, each named key gives the command of the named-key table and each bound letter that of the letter table, and nothing else gives a command |
| Keymap.FromCrosstermEvent | src/keymap.rs:51-74 | the same for crossterm events through the same tables, whatever the modifiers |
| Keymap.CharKeysFollowTable | src/keymap.rs:26-74 | both decoders map every letter through one binding table |
| Keymap.DecodersAgree | src/keymap.rs:26-74 | the two decoders give the same command for every key both libraries share and for resizes |
| UiCrossterm.VisibleWindow | src/ui_crossterm.rs:46-48 | there is no window exactly when the source panics (height 0, or a slice start past its end); at most height-1 rows, the cursor visible, and the start is exactly selected + 2 - height once that is positive, so the cursor is on the last list row |
| UiCrossterm.PaintEntries | src/ui_crossterm.rs:49-62 | the loop paints exactly the window's entries, cut to the width, the cursor's entry highlighted, and its early break loses none |
| UiCrossterm.ClearRows | src/ui_crossterm.rs:63-68 | the painted rows are kept and every row below them down to the status row is cleared |
| UiCrossterm.Update | src/ui_crossterm.rs:43-72 | the painted screen has height-1 rows: the window's items truncated to the width, the cursor row highlighted, the rest cleared |
| UiCrossterm.StatusLine | src/ui_crossterm.rs:77-82 | exactly width characters: the status, cut or padded with spaces |
| Store.NewFeed | src/main.rs:98 | a parsed feed entry becomes a feed with no episodes |
| Store.RssPath | src/main.rs:69 | the cached document path ends in the feed's `.rss` file name |
| Store.RssPathShape | src/main.rs:69 | the cached document is "<folder>.rss" inside the configuration folder, or that path itself when the folder is absolute |
| Store.CompareEpisodes | src/main.rs:76-82 | Less iff both dated and the first is newer, Equal iff both dated with equal dates, otherwise Greater |
| Store.CompareDatedIsTotal | src/main.rs:79 | on dated episodes the comparator is a total preorder: reversing the arguments reverses it, and it is transitive |
| Store.UndatedComparesGreaterBothWays | src/main.rs:80 | an undated episode compares Greater against anything, on either side |
| Store.Insert | src/main.rs:76-82 | inserting adds exactly the episode, as a multiset |
| Store.SortEpisodes | src/main.rs:76-82 | the sort is a permutation of its input |
| Store.InsertKeepsOrder | src/main.rs:76-82 | inserting a dated episode into a newest-first run keeps it newest first |
| Store.SortedNewestFirst | src/main.rs:76-82 | when every episode is dated the sorted list is newest first |
| Store.UndatedStopsInsertion | src/main.rs:80 | after an undated episode, an inserted episode stays where it is |
| Store.WithDateMember | src/main.rs:76-82 | every episode of a date class has that date and comes from the sequence |
| Store.InsertKeepsDateOrder | src/main.rs:76-82 | inserting appends the episode to its own date class and leaves every date class in order |
| Store.SortKeepsDateOrder | src/main.rs:76-82 | the sort is stable: each date class, the undated episodes included, keeps its input order |
| Store.DateClassesDetermineOrder | src/main.rs:76-82 | two newest-first dated sequences with the same date classes are equal |
| Store.StableSortIsSortEpisodes | src/main.rs:76-82 | on dated episodes any newest-first arrangement keeping each date class in input order is the sort's result |
| Store.AttachAll | src/main.rs:72-74 | every episode gets the feed as its owner, nothing else changes |
| Store.InsertCommutesWithFlags | src/main.rs:76-84 | flags do not affect insertion: flag then insert equals insert then flag |
| Store.SortCommutesWithFlags | src/main.rs:76-84 | flags do not affect the sort: flag then sort equals sort then flag |
| Store.Reloaded | src/main.rs:68-89 | a missing or unparsable document leaves the feed unchanged; otherwise the episodes are the parsed ones, attached, flagged and sorted, and the fields and cursor are kept |
| Store.ReloadedOrderAndFlags | src/main.rs:68-89 | with every episode dated, a reloaded feed is newest first and every flag matches the file system |
| Store.UpdateFeed | src/main.rs:68-89 | attach loop, sort and recheck compute exactly the reloaded feed |
| Store.LoadedFeeds | src/main.rs:96-105 | one feed per entry of the feed list, each reloaded and attached, in order |
| Store.LoadFeeds | src/main.rs:96-105 | the loop computes exactly the loaded feeds |
| ViewMachine.Initial | src/main.rs:133-154 | the start state shows the loaded feeds with cursor 0, other lists empty, both repaint flags set |
| ViewMachine.WriteBack | src/main.rs:168-176 | the projection's cursor is written into the backing list of the active view; the other lists, the other feeds and every other field are unchanged, and no list's items change |
| ViewMachine.Switch | src/main.rs:157-162 | the view, its rows and the cursor are set, nothing else |
| ViewMachine.RefreshDownloads | src/main.rs:206-212 | one download per feed, in order, with the feed's url, exactly its cached document path and a FeedDownloaded success message |
| ViewMachine.MoveCursor | src/main.rs:178-195 | the projection cursor moves and is written back by WriteBack; no download or task is queued and the projected rows are unchanged |
| ViewMachine.CursorKey | src/main.rs:186-195 | a cursor key changes no feed content and queues no download and no task |
| ViewMachine.ViewKey | src/main.rs:196-227 | a view key changes none of the four lists, and only Headers adds a task |
| ViewMachine.OpenFeed | src/main.rs:198-204 | opening a feed leaves the four lists and the tasks unchanged |
| ViewMachine.RefreshAll | src/main.rs:205-214 | the refresh only appends downloads and a task |
| ViewMachine.ProbeHeaders | src/main.rs:217-227 | the header probe leaves the four lists unchanged and appends at most one task |
| ViewMachine.DownloadSelected | src/main.rs:228-255 | it continues the loop iff the view is neither Feeds nor Episodes, and never quits |
| ViewMachine.OnKey | src/main.rs:164-262 | the key arm keeps the invariant, quits iff Quit, skips the repaint iff PageUp/PageDown, takes the new size, keeps feed content, status, headers and log, and only appends to downloads and tasks |
| ViewMachine.StepKeysMoveCursorCyclically | src/main.rs:186-187 | Up/Down move the cursor by -1/+1 modulo the length, in range, written back, keeping the list and view in sync |
| ViewMachine.HomeAndEndSelectEnds | src/main.rs:188-195 | Home selects the first row and End the last, in the projection and the backing list |
| ViewMachine.HomeSelectsFirst | src/main.rs:188-191 | Home selects row 0 in the projection and the backing list |
| ViewMachine.EndSelectsLast | src/main.rs:192-195 | End selects the last row of a non-empty list in the projection and the backing list |
| ViewMachine.PageKeysChangeNothing | src/main.rs:260 | PageUp/PageDown only take the new size and clear the repaint flag |
| ViewMachine.ViewKeysSync | src/main.rs:196-227 | after a view key the projection shows that view's backing list and cursor |
| ViewMachine.ReturningToViewRestoresCursor | src/main.rs:196-227 | from any synced view, leaving by any view key and coming back by that view's key shows the same rows at the same cursor |
| ViewMachine.EnterOpensNonEmptyFeed | src/main.rs:198-204 | Enter/Right on a feed with episodes shows them in sync, leaving feeds, downloads and tasks alone; otherwise nothing changes but the size and repaint flag |
| ViewMachine.HeadersKeyProbes | src/main.rs:217-227 | Headers switches view, keeps feeds and downloads, and probes the current feed's or episode's url, or nothing in other views |
| ViewMachine.RefreshQueuesEveryFeed | src/main.rs:205-214 | Refresh appends one download per feed, each to the feed's cached document path, and one fetch task carrying exactly those downloads |
| ViewMachine.DownloadKeyQueuesSelected | src/main.rs:228-255 | Download queues the current feed (to its cached document path) or episode with its success message, or continues the loop in other views |
| ViewMachine.FindFirst | src/main.rs:273 | the index returned is the first item matching, and none means no item matches |
| ViewMachine.OnMessage | src/main.rs:264-307 | every message keeps the invariant, sets the status flag, and leaves size and tasks alone; only download-completion messages set the repaint flag |
| ViewMachine.ProgressUpdatesFirstMatch | src/main.rs:294-298 | progress updates the first download with that url and nothing else but the status repaint flag; an unknown url changes only that flag |
| ViewMachine.SizeUpdatesFirstMatch | src/main.rs:299-303 | a size report sets the total of the first download with that url and nothing else but the status repaint flag; an unknown url changes only that flag |
| ViewMachine.NotificationSetsStatus | src/main.rs:266 | a notification becomes the status text and sets the status flag, nothing else |
| ViewMachine.LogMessageAppends | src/main.rs:304 | a log line is appended to the log list, keeping its cursor; nothing else but the status repaint flag changes, not even the display in the Log view |
| ViewMachine.FeedDownloadedReloadsThatFeed | src/main.rs:271-281 | only the first feed with that name is reloaded, the status names it, and the Feeds projection is refreshed |
| ViewMachine.FeedUpdatedReloadsAll | src/main.rs:267-270 | every feed is reloaded from disk with the feed cursor kept, the status reads "Feed updated", and nothing else changes (the display is not refreshed) |
| ViewMachine.EpisodeDownloadedRechecks | src/main.rs:282-289 | the current feed is rechecked, its episodes bold iff their files exist, and the Episodes projection refreshed |
| ViewMachine.HeadersMessageSwitchesView | src/main.rs:290-293 | the headers replace the header list and the view becomes Headers; nothing else but the status repaint flag changes, so the display keeps its rows |
| ViewMachine.DrainAll | src/main.rs:264-307 | draining keeps the invariant; no messages leaves the state alone, any message sets the status flag |
| ViewMachine.DrainConcat | src/main.rs:264-307 | draining two batches in turn is draining their concatenation |
| ViewMachine.UpdateStatus | src/main.rs:142-148 | the status becomes the current feed's url or the current episode's enclosure url; other views change nothing |
| ViewMachine.AfterKey | src/main.rs:165 | no key leaves the state as it was |
| ViewMachine.OnePass | src/main.rs:164-320 | a pass quits iff Quit and paints nothing when it quits or continues; otherwise, after the messages, it repaints the list exactly when update_required is set (refreshing the status from the selection first) and the status line exactly when either flag is set, paints the display list and the status cut to the width, and clears both flags; it is defined only where the painter's window exists, so every list it paints has one |
| ViewMachine.StaleHeaderCursorPanics | src/main.rs:290-293 | headers replaced under a cursor past their end make the next 'h' key's repaint panic (the pass is not defined) |
| ViewMachine.ZeroHeightRepaintPanics | src/ui_crossterm.rs:46-49 | a list repaint on a terminal of height 0 panics (the pass is not defined) |
| ViewMachine.KeyPassRepaints | src/main.rs:309-319 | a key pass without messages whose key asks for a repaint paints the display list and the refreshed status and clears both flags |
| ViewMachine.IdlePassIsInert | src/main.rs:309-319 | with no key, no messages and no flag set, a pass changes and paints nothing |
| ViewMachine.FeedListRepaint | src/main.rs:309-316 | after Up/Down in Feeds on a terminal at least one row high, the pass is defined and repaints the synced list with the current feed's url as status |
| ViewMachine.FeedKeyState | src/main.rs:186-187 | Up/Down in a synced feed list leave it synced and ask for a repaint that can be carried out |
| ViewMachine.ThreeFeedsEndThenHome | src/main.rs:188-195 | with three feeds, End selects 2 and Home selects 0, in the view and the feed list |
| EventLoop.App.constructor | src/main.rs:133-154 | the fields are set to the initial state |
| EventLoop.App.UpdateSelectedIndex | src/main.rs:168-176 | the fields become the write-back of the cursor |
| EventLoop.App.SwitchView | src/main.rs:157-162 | the fields become the view switch |
| EventLoop.App.MoveKey | src/main.rs:178-195 | the fields become the cursor-key transition |
| EventLoop.App.ChangeView | src/main.rs:196-227 | the fields become the view-key transition |
| EventLoop.App.QueueFeedDownloads | src/main.rs:205-213 | the loop appends exactly the refresh downloads, one per feed in order, to the download list and returns them |
| EventLoop.App.RefreshFeeds | src/main.rs:205-214 | the loop over the feeds leaves the fields as the refresh transition |
| EventLoop.App.QueueDownload | src/main.rs:228-255 | fields and flow as the download transition |
| EventLoop.App.HandleKey | src/main.rs:164-262 | fields and flow as the key arm |
| EventLoop.App.FindDownload | src/main.rs:295 | the search loop returns the first download with the url |
| EventLoop.App.FindFeed | src/main.rs:273 | the search loop returns the first feed with the name |
| EventLoop.App.FeedDownloadedArm | src/main.rs:271-281 | fields as the FeedDownloaded transition |
| EventLoop.App.EpisodeDownloadedArm | src/main.rs:282-289 | fields as the EpisodeDownloaded transition |
| EventLoop.App.DownloadReportArm | src/main.rs:294-303 | fields as the progress or size transition |
| EventLoop.App.HandleMessage | src/main.rs:265-306 | fields as the message transition |
| EventLoop.App.Drain | src/main.rs:264-307 | the drain loop leaves the fields as draining all messages |
| EventLoop.App.RefreshStatus | src/main.rs:142-148 | fields as the status closure |
| EventLoop.App.RunPass | src/main.rs:164-320 | fields, flow and frame as one pass of the loop; the painter runs exactly when the list is repainted and its screen is the painted window of that list |

## Left out

- Terminal I/O is not modelled: reading keys with a timeout (`peek_key`), the terminal size query, cursor movement and colours. The painter is modelled as the rows it would paint (`UiCrossterm.Update`); one loop pass records the list and status line handed to it (`Frame`).
- When `cursor::position()` fails, the crossterm painter skips clearing the remaining rows. The model always clears them.
- The tuikit painter is modelled only as the window it draws (`General.DrawWindow`). Its canvas and the `Status` widget are left out.
- Reading the feed list and RSS files is not modelled: XML parsing, `load_rss`, and `parse_pub_date` with its RFC 2822 dates. `Env` supplies their results. A parse failure of a cached RSS file is an absent document.
- The feed list itself is assumed parsed. The program aborts when `feeds.xml` is unreadable or malformed; the model does not.
- Network work is not run: `head`, `download`, `fetch` with its limit of 8 concurrent downloads, and the final FeedUpdated message. These become queued `Task` values. Their results re-enter as messages.
- The message channel, the logger that feeds it, timestamps (`log_time`) and the home directory lookup are outside the model. Concurrency between tasks and the loop is outside the model too.
- Dates are integer timestamps. An episode's displayed date is the decimal stamp rather than chrono's date format.
- Lower-casing is ASCII only, whereas the source uses Unicode `to_lowercase`.
- Store.SortEpisodes: a stable insertion sort driven by the same comparator stands in for Rust's `sort_by`. When every episode is dated the comparator is a total preorder, and the result of any stable sort is fixed by being newest first and keeping each date's episodes in input order (`Store.StableSortIsSortEpisodes`). With undated episodes the comparator is not a preorder and Rust's result is implementation-defined; the insertion sort's order there is not claimed to be Rust's.
- `Episode.feed` holds a shared reference to a copy of the feed. It is modelled as the save folder, the only field read through it.
- General.PathFileName: it takes the text after the last '/'. The platform's file-name rules (`.`, `..`, trailing separators) are not modelled.
- The `i32` conversions in `shift_index` are preconditions (`General.ThingList.CanShift`): list length and cursor fit in `i32`.
- The `usize` and `i64` arithmetic of the crossterm window is unbounded integers. In `update` no subtraction can underflow: with height 0 the slice start passes its end and the slice panics first, which `UiCrossterm.VisibleWindow` reports as no window.
- UiCrossterm.StatusLine: `update_status` computes the status row as `(height - 1) as u16` (src/ui_crossterm.rs:76). With height 0 that subtraction underflows, a panic in a debug build, and a height above 65536 is truncated by the cast. The status row's position is not modelled, so neither case is; when only the status flag is set, `ViewMachine.OnePass` paints the status line even at height 0. A list repaint at height 0 is a panic of `update` and is excluded (`ViewMachine.ZeroHeightRepaintPanics`).
- `Feed.save_path` is skipped by deserialization (`#[serde(skip)]`, `src/lib.rs:114-115`), so it is always empty, and the program never reads it. It is left out.

=== FILE: event_loop.dfy ===
/** The event loop of src/main.rs as the program runs it: the loop's
    variables are fields that each arm updates in place. Every method is
    proved to leave the fields as the corresponding transition of
    ViewMachine says. */
module EventLoop {
  import opened General
  import Keymap
  import opened Store
  import opened UiCrossterm
  import opened ViewMachine

  class App {
    var feeds: ThingList<Feed>
    var headers: ThingList<Header>
    var downloads: ThingList<Download>
    var logMessages: ThingList<string>
    var dtlist: ThingList<Thing>
    var view: View
    var status: string
    var tasks: seq<Task>
    var width: nat
    var height: nat
    var updateRequired: bool
    var statusUpdateRequired: bool

    /** The fields as one state value. */
    function Abs(): State
      reads this
    {
      State(feeds, headers, downloads, logMessages, dtlist, view, status, tasks,
            width, height, updateRequired, statusUpdateRequired)
    }

    /** The set-up before the loop: load the feeds, show them. */
    constructor (env: Env, width: nat, height: nat)
      ensures Abs() == Initial(env, width, height)
    {
      var loaded := LoadFeeds(env);
      feeds := ThingList(loaded, 0);
      headers := EmptyList();
      downloads := EmptyList();
      logMessages := EmptyList();
      dtlist := ThingList(GetThings(loaded, FeedThing), 0);
      view := View.Feeds;
      status := "";
      tasks := [];
      this.width := width;
      this.height := height;
      updateRequired := true;
      statusUpdateRequired := true;
    }

    /** `update_selected_index`. */
    method UpdateSelectedIndex()
      requires ViewListDefined(Abs())
      modifies this
      ensures Abs() == WriteBack(old(Abs()))
    {
      var i := dtlist.selectedIndex;
      match view
      case Feeds => feeds := feeds.(selectedIndex := i);
      case Episodes =>
        var f := feeds.Current();
        feeds := feeds.(things := feeds.things[feeds.selectedIndex := f.(episodes := f.episodes.(selectedIndex := i))]);
      case Headers => headers := headers.(selectedIndex := i);
      case Downloads => downloads := downloads.(selectedIndex := i);
      case Log => logMessages := logMessages.(selectedIndex := i);
    }

    /** `switch_view`. */
    method SwitchView(v: View, rows: seq<Thing>, cursor: nat)
      modifies this
      ensures Abs() == Switch(old(Abs()), v, rows, cursor)
    {
      view := v;
      dtlist := ThingList(rows, cursor);
    }

    /** Up, Down, Home and End. */
    method MoveKey(k: Keymap.KeyMap)
      requires Inv(Abs()) && KeyDefined(Abs(), k) && IsCursorKey(k)
      modifies this
      ensures Abs() == CursorKey(old(Abs()), k)
    {
      match k {
      case Up => dtlist := dtlist.ShiftIndex(-1);
      case Down => dtlist := dtlist.ShiftIndex(1);
      case Home => dtlist := dtlist.(selectedIndex := 0);
      case End => dtlist := dtlist.(selectedIndex := |dtlist.things| - 1);
      }
      UpdateSelectedIndex();
    }

    /** The keys that change the view. */
    method ChangeView(k: Keymap.KeyMap)
      requires Inv(Abs()) && KeyDefined(Abs(), k) && IsViewKey(k)
      modifies this
      ensures Abs() == ViewKey(old(Abs()), k)
    {
      match k
      case Left | Feeds => SwitchView(View.Feeds, GetThings(feeds.things, FeedThing), feeds.selectedIndex);
      case Downloads => SwitchView(View.Downloads, GetThings(downloads.things, DownloadThing), downloads.selectedIndex);
      case Right | Enter =>
        if view == View.Feeds && |feeds.Current().episodes.things| > 0 {
          var f := feeds.Current();
          SwitchView(View.Episodes, GetThings(f.episodes.things, EpisodeThing), f.episodes.selectedIndex);
        }
      case Episodes =>
        var f := feeds.Current();
        SwitchView(View.Episodes, GetThings(f.episodes.things, EpisodeThing), f.episodes.selectedIndex);
      case Log => SwitchView(View.Log, GetThings(logMessages.things, LogThing), logMessages.selectedIndex);
      case Headers =>
        if view == View.Feeds {
          tasks := tasks + [Probe(feeds.Current().url)];
        } else if view == View.Episodes {
          tasks := tasks + [Probe(feeds.Current().episodes.Current().enclosureUrl)];
        }
        SwitchView(View.Headers, GetThings(headers.things, HeaderThing), headers.selectedIndex);
    }

    /** The loop of the Refresh key: queues a download per feed, one at a
        time, and returns them in feed order. */
    method QueueFeedDownloads(configPath: string) returns (feedDownloads: seq<Download>)
      modifies this`downloads
      ensures feedDownloads == RefreshDownloads(feeds.things, configPath)
      ensures downloads == old(downloads).(things := old(downloads.things) + feedDownloads)
    {
      var fs := feeds.things;
      feedDownloads := [];
      var i := 0;
      while i < |fs|
        invariant 0 <= i <= |fs|
        invariant feedDownloads == RefreshDownloads(fs[..i], configPath)
        invariant downloads == old(downloads).(things := old(downloads.things) + feedDownloads)
      {
        var feedDl := FeedDownload(fs[i], Some(configPath));
        feedDl := feedDl.(successMessage := Some(FeedDownloaded(fs[i].name)));
        RefreshDownloadsSnoc(fs, configPath, i);
        feedDownloads := feedDownloads + [feedDl];
        downloads := downloads.(things := downloads.things + [feedDl]);
        i := i + 1;
      }
      assert fs[..i] == fs;
    }

    /** Refresh: queues a download per feed, then spawns the fetch of all
        of them. */
    method RefreshFeeds(configPath: string)
      requires Inv(Abs())
      modifies this
      ensures Abs() == RefreshAll(old(Abs()), configPath)
    {
      var feedDownloads := QueueFeedDownloads(configPath);
      tasks := tasks + [Fetch(feedDownloads)];
    }

    /** Download: queues the selected episode or feed; anywhere else the
        pass ends early. */
    method QueueDownload(configPath: string) returns (flow: Flow)
      requires Inv(Abs()) && (view == View.Feeds ==> feeds.HasCurrent())
      requires view == View.Episodes ==> EpisodeSelected(Abs())
      modifies this
      ensures KeyOutcome(Abs(), flow) == DownloadSelected(old(Abs()), configPath)
    {
      if view == View.Episodes {
        CurrentFeedAttached(Abs());
        var e := feeds.Current().episodes.Current();
        var dl := EpisodeDownload(e, None);
        tasks := tasks + [DownloadThen(dl, EpisodeDownloaded(e.name))];
        downloads := downloads.(things := downloads.things + [dl]);
        flow := Proceed;
      } else if view == View.Feeds {
        var f := feeds.Current();
        var dl := FeedDownload(f, Some(configPath));
        tasks := tasks + [DownloadThen(dl, FeedDownloaded(f.name))];
        downloads := downloads.(things := downloads.things + [dl]);
        flow := Proceed;
      } else {
        flow := Continue;
      }
    }

    /** The key arm of the loop. */
    method HandleKey(k: Keymap.KeyMap, configPath: string, w: nat, h: nat) returns (flow: Flow)
      requires Inv(Abs()) && KeyDefined(Abs(), k)
      modifies this
      ensures KeyOutcome(Abs(), flow) == OnKey(old(Abs()), k, configPath, w, h)
    {
      width, height := w, h;
      updateRequired := true;
      flow := Proceed;
      ghost var t := Abs();
      assert t == old(Abs()).(width := w, height := h, updateRequired := true);
      if IsCursorKey(k) {
        MoveKey(k);
        assert Abs() == CursorKey(t, k);
      } else if IsViewKey(k) {
        ChangeView(k);
        assert Abs() == ViewKey(t, k);
      } else if k.Refresh? {
        RefreshFeeds(configPath);
        assert Abs() == RefreshAll(t, configPath);
      } else if k.Download? {
        flow := QueueDownload(configPath);
        assert KeyOutcome(Abs(), flow) == DownloadSelected(t, configPath);
      } else {
        match k
        case Quit => flow := Quit;
        case Resize(newWidth, newHeight) => width, height := newWidth, newHeight;
        case PageUp | PageDown => updateRequired := false;
      }
    }

    /** The index of the first download of the URL, searched from the front. */
    method FindDownload(url: string) returns (found: Option<nat>)
      ensures found == FindFirst(downloads.things, DownloadOf(url))
    {
      var i := 0;
      while i < |downloads.things| && downloads.things[i].url != url
        invariant 0 <= i <= |downloads.things|
        invariant forall j :: 0 <= j < i ==> !DownloadOf(url)(downloads.things[j])
      {
        i := i + 1;
      }
      found := if i < |downloads.things| then Some(i) else None;
    }

    /** The index of the first feed of the name, searched from the front. */
    method FindFeed(name: string) returns (found: Option<nat>)
      ensures found == FindFirst(feeds.things, FeedNamed(name))
    {
      var i := 0;
      while i < |feeds.things| && feeds.things[i].name != name
        invariant 0 <= i <= |feeds.things|
        invariant forall j :: 0 <= j < i ==> !FeedNamed(name)(feeds.things[j])
      {
        i := i + 1;
      }
      found := if i < |feeds.things| then Some(i) else None;
    }

    /** A finished feed download: reload the first feed of that name. */
    method FeedDownloadedArm(name: string, env: Env)
      requires Inv(Abs())
      modifies this
      ensures Abs().(statusUpdateRequired := true) == OnMessage(old(Abs()), FeedDownloaded(name), env)
    {
      OnFeedDownloaded(Abs(), name, env);
      var found := FindFeed(name);
      var reloaded := feeds;
      if found.Some? {
        var g := UpdateFeed(feeds.things[found.value], env);
        reloaded := feeds.(things := feeds.things[found.value := g]);
      }
      var shown := if view == View.Feeds then dtlist.(things := GetThings(reloaded.things, FeedThing)) else dtlist;
      status, feeds, dtlist, updateRequired := "Downloaded: " + name, reloaded, shown, true;
    }

    /** A finished episode download: recheck the selected feed's files. */
    method EpisodeDownloadedArm(name: string, env: Env)
      requires Inv(Abs()) && feeds.HasCurrent()
      modifies this
      ensures Abs().(statusUpdateRequired := true) == OnMessage(old(Abs()), EpisodeDownloaded(name), env)
    {
      OnEpisodeDownloaded(Abs(), name, env);
      status := "Downloaded: " + name;
      var g := CheckEpisodesDownloaded(feeds.Current(), env.exists_);
      feeds := feeds.(things := feeds.things[feeds.selectedIndex := g]);
      if view == View.Episodes {
        dtlist := dtlist.(things := GetThings(g.episodes.things, EpisodeThing));
      }
      updateRequired := true;
    }

    /** A progress or size report: update the first download of that URL. */
    method DownloadReportArm(m: Message, env: Env)
      requires Inv(Abs()) && (m.DownloadProgress? || m.DownloadSize?)
      modifies this
      ensures Abs().(statusUpdateRequired := true) == OnMessage(old(Abs()), m, env)
    {
      var found := FindDownload(m.url);
      if found.Some? {
        var i := found.value;
        var dl := downloads.things[i];
        dl := if m.DownloadProgress? then dl.(downloadedBytes := m.bytes) else dl.(totalBytes := m.bytes);
        downloads := downloads.(things := downloads.things[i := dl]);
      }
    }

    /** The message arm of the loop, for one message. */
    method HandleMessage(m: Message, env: Env)
      requires Inv(Abs()) && MessageDefined(Abs(), m)
      modifies this
      ensures Abs() == OnMessage(old(Abs()), m, env)
    {
      match m {
        case Notification(text) => status := text;
        case FeedUpdated =>
          status := "Feed updated";
          var loaded := LoadFeeds(env);
          feeds := feeds.(things := loaded);
        case FeedDownloaded(name) => FeedDownloadedArm(name, env);
        case EpisodeDownloaded(name) => EpisodeDownloadedArm(name, env);
        case Headers(list) =>
          view := View.Headers;
          headers := headers.(things := list);
        case DownloadProgress(_, _) => DownloadReportArm(m, env);
        case DownloadSize(_, _) => DownloadReportArm(m, env);
        case LogMessage(text) => logMessages := logMessages.(things := logMessages.things + [text]);
      }
      statusUpdateRequired := true;
    }

    /** Handles every queued message in turn. */
    method Drain(msgs: seq<Message>, env: Env)
      requires Inv(Abs()) && DrainDefined(Abs(), msgs, env)
      modifies this
      ensures Abs() == DrainAll(old(Abs()), msgs, env)
    {
      var i := 0;
      assert msgs[i..] == msgs;
      while i < |msgs|
        invariant 0 <= i <= |msgs|
        invariant Inv(Abs()) && DrainDefined(Abs(), msgs[i..], env)
        invariant DrainAll(Abs(), msgs[i..], env) == DrainAll(old(Abs()), msgs, env)
      {
        assert msgs[i..][0] == msgs[i] && msgs[i..][1..] == msgs[i + 1..];
        HandleMessage(msgs[i], env);
        i := i + 1;
      }
    }

    /** The status closure. */
    method RefreshStatus()
      requires StatusDefined(Abs())
      modifies this
      ensures Abs() == UpdateStatus(old(Abs()))
    {
      match view
      case Feeds => status := feeds.Current().url;
      case Episodes => status := feeds.Current().episodes.Current().enclosureUrl;
      case _ =>
    }

    /** One pass of the loop: a key if one was read, the queued messages,
        then the repaint, after which both flags are cleared. The painter
        runs on the list it is handed and returns the rows it paints. */
    method RunPass(key: Option<Keymap.KeyMap>, w: nat, h: nat, msgs: seq<Message>, env: Env)
      returns (flow: Flow, frame: Frame, screen: Option<seq<Row>>)
      requires PassDefined(Abs(), key, w, h, msgs, env)
      modifies this
      ensures Pass(Abs(), flow, frame) == OnePass(old(Abs()), key, w, h, msgs, env)
      ensures screen.Some? <==> frame.list.Some?
      ensures screen.Some? ==> Painted(frame.list.value, height, width, screen.value)
    {
      screen := None;
      flow := Proceed;
      if key.Some? {
        flow := HandleKey(key.value, env.configPath, w, h);
      }
      if flow != Proceed {
        return flow, Frame(None, None), None;
      }
      Drain(msgs, env);
      var list: Option<ThingList<Thing>> := None;
      var line: Option<string> := None;
      if updateRequired {
        RefreshStatus();
        list := Some(dtlist);
        screen := Update(dtlist, height, width);
      }
      if updateRequired || statusUpdateRequired {
        line := Some(StatusLine(status, width));
      }
      updateRequired := false;
      statusUpdateRequired := false;
      frame := Frame(list, line);
    }
  }
}

=== FILE: general.dfy ===
/** The shared data model of the application (the `general` module of
    src/lib.rs): feeds, episodes, downloads, headers, the messages that
    background work sends to the event loop, the cursor list `ThingList`,
    the per-entity display text and style, and the download builders. */
module General {
  import opened Text

  datatype Option<T> = None | Some(value: T)

  /** An unsigned 64-bit count of bytes. */
  type U64 = n: nat | n < 0x1_0000_0000_0000_0000

  const I32Min: int := -0x8000_0000
  const I32Max: int := 0x7fff_ffff

  predicate InI32(x: int) { I32Min <= x <= I32Max }

  /** The two text styles the application paints with (plain, or bold). */
  datatype Style = Normal | Bold

  datatype Header = Header(name: string, url: string)

  /** The events that background work and the logger send to the event loop. */
  datatype Message =
    | Notification(text: string)
    | LogMessage(text: string)
    | FeedUpdated
    | FeedDownloaded(feedName: string)
    | EpisodeDownloaded(episodeName: string)
    | DownloadProgress(url: string, bytes: U64)
    | DownloadSize(url: string, bytes: U64)
    | Headers(headers: seq<Header>)

  /** An episode. `feed` stands for the back-reference to the owning feed:
      it holds that feed's save folder once the episode has been attached,
      and is None for an episode fresh from the parser. */
  datatype Episode = Episode(
    name: string,
    pubDate: Option<int>,
    enclosureUrl: string,
    downloaded: bool,
    feed: Option<string>)

  datatype Feed = Feed(
    name: string,
    folder: string,
    saveFolder: string,
    url: string,
    episodes: ThingList<Episode>)

  datatype Download = Download(
    url: string,
    path: string,
    downloadedBytes: U64,
    totalBytes: U64,
    successMessage: Option<Message>)

  /** A row ready for display: its text and its style. */
  datatype Thing = Thing(text: string, style: Style)

  /** A vector with a cursor. */
  datatype ThingList<T> = ThingList(things: seq<T>, selectedIndex: nat)
  {
    /** `current()` indexes the vector at the cursor, so it needs the cursor in range. */
    predicate HasCurrent()
    {
      selectedIndex < |things|
    }

    function Current(): (r: T)
      requires HasCurrent()
      ensures r in things
    {
      things[selectedIndex]
    }

    /** What `shift_index` needs to run without a panic: a non-empty vector
        (the remainder is taken modulo its length) and casts to i32 that
        keep their values. */
    predicate CanShift(offset: int)
    {
      0 < |things| <= I32Max && selectedIndex <= I32Max && InI32(offset)
      && InI32(selectedIndex + offset)
    }

    /** `shift_index`: the cursor moves by offset cyclically. */
    function ShiftIndex(offset: int): (r: ThingList<T>)
      requires CanShift(offset)
      ensures r.things == things && r.HasCurrent()
      ensures (selectedIndex + offset - r.selectedIndex) % |things| == 0
    {
      ModLeavesMultiple(selectedIndex + offset, |things|);
      this.(selectedIndex := (selectedIndex + offset) % |things|)
    }
  }

  /** `ThingList::default()`. */
  function EmptyList<T>(): (r: ThingList<T>)
    ensures |r.things| == 0 && r.selectedIndex == 0 && !r.HasCurrent()
  {
    ThingList([], 0)
  }

  /** `ThingList` equality compares the vectors only. */
  predicate SameThings<T(==)>(a: ThingList<T>, b: ThingList<T>)
  {
    a.things == b.things
  }

  lemma EqualityIgnoresCursor<T>(a: ThingList<T>, b: ThingList<T>, i: nat, j: nat)
    ensures SameThings(a, b) <==> SameThings(a.(selectedIndex := i), b.(selectedIndex := j))
    ensures SameThings(a, a.(selectedIndex := i))
  {
  }

  // ---------------------------------------------------------------------
  // Repeated cursor moves

  function Sum(offsets: seq<int>): int
  {
    if offsets == [] then 0 else offsets[0] + Sum(offsets[1..])
  }

  /** Offsets of single steps up or down. */
  predicate Steps(offsets: seq<int>)
  {
    forall i :: 0 <= i < |offsets| ==> -1 <= offsets[i] <= 1
  }

  /** The cursor after applying the offsets one after another. */
  function Navigate<T>(l: ThingList<T>, offsets: seq<int>): (r: ThingList<T>)
    requires 0 < |l.things| <= I32Max && l.HasCurrent() && Steps(offsets)
    ensures r.things == l.things && r.HasCurrent()
    decreases |offsets|
  {
    if offsets == [] then l else Navigate(l.ShiftIndex(offsets[0]), offsets[1..])
  }

  lemma MulAtLeast(k: int, n: int)
    requires k >= 1 && n > 0
    ensures k * n >= n
  {
    var m := k - 1;
    assert k * n == m * n + n;
    assert m * n >= 0;
  }

  /** Quotient and remainder are the only pair that rebuilds y. */
  lemma DivModUnique(y: int, n: int, d: int, r: int)
    requires n > 0 && 0 <= r < n && y == d * n + r
    ensures y % n == r && y / n == d
  {
    var d', r' := y / n, y % n;
    assert y == d' * n + r';
    assert d * n - d' * n == r' - r;
    assert (d - d') * n == d * n - d' * n;
    assert (d' - d) * n == d' * n - d * n;
    if d > d' {
      MulAtLeast(d - d', n);
      assert false;
    } else if d < d' {
      MulAtLeast(d' - d, n);
      assert false;
    }
  }

  lemma ModOfShift(x: int, q: int, n: int)
    requires n > 0
    ensures (x + q * n) % n == x % n
  {
    assert x == (x / n) * n + x % n;
    assert x + q * n == (x / n + q) * n + x % n;
    DivModUnique(x + q * n, n, x / n + q, x % n);
  }

  lemma ModLeavesMultiple(x: int, n: int)
    requires n > 0
    ensures (x - x % n) % n == 0
  {
    assert x - x % n == (x / n) * n + 0;
    DivModUnique(x - x % n, n, x / n, 0);
  }

  lemma ModAddLeft(a: int, b: int, n: int)
    requires n > 0
    ensures (a % n + b) % n == (a + b) % n
  {
    assert a % n + b == (a + b) + (-(a / n)) * n;
    ModOfShift(a + b, -(a / n), n);
  }

  /** One shift followed by further offsets amounts to adding them all. */
  lemma ShiftThenAdd<T>(l: ThingList<T>, offset: int, more: int)
    requires l.CanShift(offset)
    ensures (l.ShiftIndex(offset).selectedIndex + more) % |l.things| == (l.selectedIndex + offset + more) % |l.things|
  {
    ModAddLeft(l.selectedIndex + offset, more, |l.things|);
  }

  /** After any sequence of single steps on a non-empty list, the cursor is
      the starting cursor plus the sum of the steps, modulo the length. */
  lemma {:induction false} NavigateIsCumulativeOffset<T>(l: ThingList<T>, offsets: seq<int>)
    requires 0 < |l.things| <= I32Max && l.HasCurrent() && Steps(offsets)
    ensures Navigate(l, offsets).selectedIndex == (l.selectedIndex + Sum(offsets)) % |l.things|
    decreases |offsets|
  {
    if offsets == [] {
      DivModUnique(l.selectedIndex, |l.things|, 0, l.selectedIndex);
    } else {
      var n, l' := |l.things|, l.ShiftIndex(offsets[0]);
      var total := l.selectedIndex + offsets[0] + Sum(offsets[1..]);
      calc {
        Navigate(l, offsets).selectedIndex;
        Navigate(l', offsets[1..]).selectedIndex;
        { NavigateIsCumulativeOffset(l', offsets[1..]); }
        (l'.selectedIndex + Sum(offsets[1..])) % n;
        { ShiftThenAdd(l, offsets[0], Sum(offsets[1..])); }
        total % n;
      }
      assert total == l.selectedIndex + Sum(offsets);
    }
  }

  // ---------------------------------------------------------------------
  // Sizes

  /** `bytes_pretty`: a byte count in three bands, plain, thousands ("K") or
      millions with one tenths digit ("M"). */
  function BytesPretty(b: U64): (r: string)
    ensures |r| >= 1
    ensures r[|r| - 1] == 'M' <==> b >= 1000 * 1000
    ensures r[|r| - 1] == 'K' <==> 1000 <= b < 1000 * 1000
    ensures b < 1000 ==> AllDigits(r)
  {
    if b >= 1000 * 1000 then
      NatToString(b / (1000 * 1000)) + "." + NatToString(b % (1000 * 1000) / 100_000) + "M"
    else if b >= 1000 then
      NatToString(b / 1000) + "K"
    else
      NatToString(b)
  }

  /** A displayed size read back: the value it stands for and the size of
      the band step (1, 1000 or 100000 bytes). */
  datatype Reading = Reading(low: nat, step: nat)

  function ReadPretty(s: string): Option<Reading>
  {
    if |s| >= 4 && s[|s| - 1] == 'M' && s[|s| - 3] == '.' && AllDigits(s[..|s| - 3]) && IsDigit(s[|s| - 2]) then
      Some(Reading(ParseNat(s[..|s| - 3]) * 1000000 + DigitValue(s[|s| - 2]) * 100000, 100000))
    else if |s| >= 2 && s[|s| - 1] == 'K' && AllDigits(s[..|s| - 1]) then
      Some(Reading(ParseNat(s[..|s| - 1]) * 1000, 1000))
    else if AllDigits(s) then
      Some(Reading(ParseNat(s), 1))
    else
      None
  }

  /** Every displayed size reads back as a lower bound of the count that is
      off by less than one step of its band; the band is chosen by size. */
  lemma BytesPrettyReadsBack(b: U64)
    ensures ReadPretty(BytesPretty(b)).Some?
    ensures var r := ReadPretty(BytesPretty(b)).value;
      r.low <= b < r.low + r.step &&
      r.step == (if b < 1000 then 1 else if b < 1000000 then 1000 else 100000)
  {
    var s := BytesPretty(b);
    if b >= 1000000 {
      var q := b / 1000000;
      var t := b % 1000000 / 100000;
      assert t < 10;
      assert NatToString(t) == [DigitChar(t)];
      assert s == NatToString(q) + "." + [DigitChar(t)] + "M";
      assert s[..|s| - 3] == NatToString(q);
      assert s[|s| - 2] == DigitChar(t);
      ParseNatToString(q);
      assert b == q * 1000000 + b % 1000000;
      assert t * 100000 <= b % 1000000 < t * 100000 + 100000;
    } else if b >= 1000 {
      var q := b / 1000;
      assert s[..|s| - 1] == NatToString(q);
      ParseNatToString(q);
    } else {
      assert s[|s| - 1] != 'M' && s[|s| - 1] != 'K';
      ParseNatToString(b);
    }
  }

  // ---------------------------------------------------------------------
  // Paths and downloads

  /** The last component of a path: the characters after its last '/'. */
  function PathFileName(path: string): (r: string)
    ensures '/' !in r
  {
    if path == [] || path[|path| - 1] == '/' then []
    else PathFileName(path[..|path| - 1]) + [path[|path| - 1]]
  }

  /** The file name is the longest suffix of the path without a '/'. */
  lemma {:induction false} FileNameIsLastComponent(path: string)
    ensures |PathFileName(path)| <= |path| && PathFileName(path) == path[|path| - |PathFileName(path)|..]
    ensures |PathFileName(path)| < |path| ==> path[|path| - |PathFileName(path)| - 1] == '/'
  {
    if path != [] && path[|path| - 1] != '/' {
      FileNameIsLastComponent(path[..|path| - 1]);
    }
  }

  /** Appending to a directory name leaves the file name to the appended part. */
  lemma {:induction false} FileNameAfterSeparator(dir: string, rest: string)
    requires dir == [] || dir[|dir| - 1] == '/'
    ensures PathFileName(dir + rest) == PathFileName(rest)
    decreases |rest|
  {
    if rest == [] {
      assert dir + rest == dir;
    } else {
      var p := dir + rest;
      assert p[|p| - 1] == rest[|rest| - 1];
      assert p[..|p| - 1] == dir + rest[..|rest| - 1];
      FileNameAfterSeparator(dir, rest[..|rest| - 1]);
    }
  }

  /** A name without '/' is its own file name. */
  lemma {:induction false} FileNameOfPlainName(s: string)
    requires '/' !in s
    ensures PathFileName(s) == s
  {
    if s != [] {
      assert s[|s| - 1] in s;
      assert '/' !in s[..|s| - 1] by {
        forall c | c in s[..|s| - 1] ensures c in s { }
      }
      FileNameOfPlainName(s[..|s| - 1]);
      assert s[..|s| - 1] + [s[|s| - 1]] == s;
    }
  }

  /** A directory name that needs no separator before a file name. */
  predicate EndsInSeparator(base: string)
  {
    base == [] || base[|base| - 1] == '/'
  }

  /** `PathBuf::join`: an absolute path replaces the base; otherwise a '/'
      separates the two unless the base is empty or already ends in '/'. */
  function JoinPath(base: string, path: string): (r: string)
    ensures PathFileName(r) == PathFileName(path)
  {
    if |path| > 0 && path[0] == '/' then path
    else if EndsInSeparator(base) then
      FileNameAfterSeparator(base, path);
      base + path
    else
      FileNameAfterSeparator(base + "/", path);
      base + "/" + path
  }

  /** An absolute path replaces the base; a relative one is appended to it,
      with a '/' in between unless the base is empty or already ends in one. */
  lemma JoinPathShape(base: string, path: string)
    ensures |path| > 0 && path[0] == '/' ==> JoinPath(base, path) == path
    ensures !(|path| > 0 && path[0] == '/') ==>
      var r := JoinPath(base, path);
      |r| == |base| + |path| + (if EndsInSeparator(base) then 0 else 1) &&
      r[..|base|] == base && r[|r| - |path|..] == path &&
      (!EndsInSeparator(base) ==> r[|base|] == '/')
  {
  }

  /** The episode's title with every '/' replaced by '_'. */
  function ReplaceSlashes(s: string): (r: string)
    ensures |r| == |s|
    ensures forall i :: 0 <= i < |s| ==> r[i] == if s[i] == '/' then '_' else s[i]
  {
    if s == [] then []
    else [if s[0] == '/' then '_' else s[0]] + ReplaceSlashes(s[1..])
  }

  /** `Episode::filename`. */
  function EpisodeFilename(e: Episode): (r: string)
    ensures |r| == |e.name| + 4 && r[|e.name|..] == ".mp3"
    ensures forall i :: 0 <= i < |e.name| ==> r[i] == if e.name[i] == '/' then '_' else e.name[i]
    ensures '/' !in r
  {
    ReplaceSlashes(e.name) + ".mp3"
  }

  /** An episode's save path: its feed's save folder, '/', its file name.
      The source unwraps the feed reference, so the episode must be attached. */
  function EpisodeSavePath(e: Episode): (r: string)
    requires e.feed.Some?
    ensures StartsWith(r, e.feed.value + "/")
    ensures |r| == |e.feed.value| + 1 + |EpisodeFilename(e)| && r[|e.feed.value| + 1..] == EpisodeFilename(e)
    ensures PathFileName(r) == EpisodeFilename(e)
  {
    var f := e.feed.value + "/";
    FileNameAfterSeparator(f, EpisodeFilename(e));
    FileNameOfPlainName(EpisodeFilename(e));
    f + EpisodeFilename(e)
  }

  /** A feed's save path: its folder with ".rss" appended. */
  function FeedSavePath(f: Feed): (r: string)
    ensures |r| == |f.folder| + 4 && StartsWith(r, f.folder) && r[|f.folder|..] == ".rss"
  {
    f.folder + ".rss"
  }

  /** `Downloadable::get_download`: a fresh download of url to the save path,
      joined onto the prefix when one is given. */
  function GetDownload(url: string, savePath: string, prefix: Option<string>): (d: Download)
    ensures d.url == url && d.downloadedBytes == 0 && d.totalBytes == 0 && d.successMessage.None?
    ensures PathFileName(d.path) == PathFileName(savePath)
    ensures prefix.None? ==> d.path == savePath
    ensures prefix.Some? ==> d.path == JoinPath(prefix.value, savePath)
  {
    Download(
      url,
      match prefix
      case Some(p) => JoinPath(p, savePath)
      case None => savePath,
      0, 0, None)
  }

  /** A feed's download: its url, to its `.rss` file. */
  function FeedDownload(f: Feed, prefix: Option<string>): (d: Download)
    ensures d.url == f.url && d.downloadedBytes == 0 && d.totalBytes == 0 && d.successMessage.None?
    ensures d.path == match prefix
      case None => FeedSavePath(f)
      case Some(c) => JoinPath(c, FeedSavePath(f))
  {
    GetDownload(f.url, FeedSavePath(f), prefix)
  }

  /** An episode's download: its enclosure url, to its save path. */
  function EpisodeDownload(e: Episode, prefix: Option<string>): (d: Download)
    requires e.feed.Some?
    ensures d.url == e.enclosureUrl && d.downloadedBytes == 0 && d.totalBytes == 0 && d.successMessage.None?
    ensures d.path == match prefix
      case None => EpisodeSavePath(e)
      case Some(c) => JoinPath(c, EpisodeSavePath(e))
  {
    GetDownload(e.enclosureUrl, EpisodeSavePath(e), prefix)
  }

  // ---------------------------------------------------------------------
  // Downloaded flags

  /** Every episode of the feed carries its feed reference. */
  predicate Attached(f: Feed)
  {
    forall i :: 0 <= i < |f.episodes.things| ==> f.episodes.things[i].feed.Some?
  }

  function Flagged(e: Episode, exists_: string -> bool): Episode
    requires e.feed.Some?
  {
    e.(downloaded := exists_(EpisodeSavePath(e)))
  }

  function FlagAll(eps: seq<Episode>, exists_: string -> bool): (r: seq<Episode>)
    requires forall i :: 0 <= i < |eps| ==> eps[i].feed.Some?
    ensures |r| == |eps|
    ensures forall i :: 0 <= i < |eps| ==> r[i] == Flagged(eps[i], exists_)
  {
    seq(|eps|, i requires 0 <= i < |eps| => Flagged(eps[i], exists_))
  }

  /** The feed after `check_episodes_downloaded`, with the file system
      given as a predicate on paths. */
  function Recheck(f: Feed, exists_: string -> bool): (g: Feed)
    requires Attached(f)
    ensures Attached(g)
    ensures g.name == f.name && g.folder == f.folder && g.saveFolder == f.saveFolder && g.url == f.url
    ensures g.episodes.selectedIndex == f.episodes.selectedIndex
    ensures |g.episodes.things| == |f.episodes.things|
    ensures forall i :: 0 <= i < |f.episodes.things| ==>
      g.episodes.things[i].downloaded == exists_(EpisodeSavePath(f.episodes.things[i])) &&
      g.episodes.things[i].(downloaded := f.episodes.things[i].downloaded) == f.episodes.things[i]
  {
    f.(episodes := f.episodes.(things := FlagAll(f.episodes.things, exists_)))
  }

  /** `check_episodes_downloaded`: sets each episode's flag in turn. */
  method CheckEpisodesDownloaded(f: Feed, exists_: string -> bool) returns (g: Feed)
    requires Attached(f)
    ensures g == Recheck(f, exists_)
  {
    var eps := f.episodes.things;
    var i := 0;
    while i < |eps|
      invariant 0 <= i <= |eps| == |f.episodes.things|
      invariant forall k :: 0 <= k < i ==> eps[k] == Flagged(f.episodes.things[k], exists_)
      invariant forall k :: i <= k < |eps| ==> eps[k] == f.episodes.things[k]
    {
      eps := eps[i := eps[i].(downloaded := exists_(EpisodeSavePath(eps[i])))];
      i := i + 1;
    }
    g := f.(episodes := f.episodes.(things := eps));
  }

  /** Checking twice changes nothing more than checking once. */
  lemma RecheckIdempotent(f: Feed, exists_: string -> bool)
    requires Attached(f)
    ensures Recheck(Recheck(f, exists_), exists_) == Recheck(f, exists_)
  {
    var g := Recheck(f, exists_);
    var h := Recheck(g, exists_);
    assert h.episodes.things == g.episodes.things;
  }

  // ---------------------------------------------------------------------
  // Display text and styles

  /** A feed is bold when its first episode is neither a teaser nor downloaded. */
  function FeedStyle(f: Feed): Style
  {
    var eps := f.episodes.things;
    if |eps| > 0 && !Contains(Lower(eps[0].name), "teaser") && !eps[0].downloaded then Bold else Normal
  }

  /** A feed is bold exactly when it has a first episode, that episode's
      lower-cased title has no occurrence of "teaser", and it is not
      downloaded. */
  lemma FeedStyleBold(f: Feed)
    ensures FeedStyle(f) == Bold <==>
      |f.episodes.things| > 0 &&
      !(exists k :: OccursAt(Lower(f.episodes.things[0].name), "teaser", k)) &&
      !f.episodes.things[0].downloaded
  {
    if |f.episodes.things| > 0 {
      ContainsIffOccurs(Lower(f.episodes.things[0].name), "teaser");
    }
  }

  /** An episode is bold when it is downloaded. */
  function EpisodeStyle(e: Episode): (r: Style)
    ensures r == Bold <==> e.downloaded
  {
    if e.downloaded then Bold else Normal
  }

  /** After the flags are checked, an episode is bold exactly when its file
      exists, and a feed is bold exactly when its first episode is not a
      teaser and has no file yet. */
  lemma StylesAfterRecheck(f: Feed, exists_: string -> bool)
    requires Attached(f)
    ensures var g := Recheck(f, exists_);
      (forall i :: 0 <= i < |g.episodes.things| ==>
        (EpisodeStyle(g.episodes.things[i]) == Bold <==> exists_(EpisodeSavePath(f.episodes.things[i])))) &&
      (FeedStyle(g) == Bold <==>
        |f.episodes.things| > 0 &&
        !(exists k :: OccursAt(Lower(f.episodes.things[0].name), "teaser", k)) &&
        !exists_(EpisodeSavePath(f.episodes.things[0])))
  {
    var g := Recheck(f, exists_);
    if |f.episodes.things| > 0 {
      assert g.episodes.things[0].name == f.episodes.things[0].name;
      ContainsIffOccurs(Lower(f.episodes.things[0].name), "teaser");
    }
  }

  /** A feed is shown as its name and, in parentheses, its folder. */
  function FeedText(f: Feed): (r: string)
  {
    f.name + " (" + f.folder + ")"
  }

  /** The episode's title and date; the date is rendered as its decimal
      time stamp, or "date unknown". */
  function EpisodeText(e: Episode): (r: string)
  {
    e.name + " " + match e.pubDate
      case None => "date unknown"
      case Some(d) => IntToString(d)
  }

  /** A header is shown as its name, ": ", and its value. */
  function HeaderText(h: Header): (r: string)
  {
    h.name + ": " + h.url
  }

  /** A download is shown as its progress and the file name it writes. */
  function DownloadText(d: Download): (r: string)
  {
    BytesPretty(d.downloadedBytes) + " " + PathFileName(d.path)
  }

  /** A feed row reads back as its name, " (", its folder and ")". */
  lemma FeedTextLayout(f: Feed)
    ensures var r := FeedText(f);
      |r| == |f.name| + |f.folder| + 3 &&
      r[..|f.name|] == f.name && r[|f.name|..|f.name| + 2] == " (" &&
      r[|f.name| + 2..|r| - 1] == f.folder && r[|r| - 1] == ')'
  {
  }

  /** An episode row is its name, a space, then "date unknown" or the
      decimal time stamp, which reads back as the episode's date. */
  lemma EpisodeTextLayout(e: Episode)
    ensures var r := EpisodeText(e);
      |r| > |e.name| + 1 && r[..|e.name|] == e.name && r[|e.name|] == ' '
    ensures e.pubDate.None? ==> EpisodeText(e)[|e.name| + 1..] == "date unknown"
    ensures e.pubDate.Some? && e.pubDate.value >= 0 ==>
      var date := EpisodeText(e)[|e.name| + 1..];
      AllDigits(date) && ParseNat(date) == e.pubDate.value
    ensures e.pubDate.Some? && e.pubDate.value < 0 ==>
      var date := EpisodeText(e)[|e.name| + 2..];
      EpisodeText(e)[|e.name| + 1] == '-' && AllDigits(date) && ParseNat(date) == -e.pubDate.value
  {
    var r := EpisodeText(e);
    var date := match e.pubDate
      case None => "date unknown"
      case Some(d) => IntToString(d);
    assert r == e.name + " " + date;
    assert r[..|e.name|] == e.name && r[|e.name|] == ' ';
    assert r[|e.name| + 1..] == date;
    if e.pubDate.Some? {
      var d := e.pubDate.value;
      if d >= 0 {
        ParseNatToString(d);
      } else {
        assert date[1..] == NatToString(-d);
        assert r[|e.name| + 2..] == date[1..];
        ParseNatToString(-d);
      }
    }
  }

  /** A header row is its name, ": ", and its value. */
  lemma HeaderTextLayout(h: Header)
    ensures var r := HeaderText(h);
      |r| == |h.name| + 2 + |h.url| &&
      r[..|h.name|] == h.name && r[|h.name|..|h.name| + 2] == ": " && r[|h.name| + 2..] == h.url
  {
  }

  /** A download row is its progress, which reads back as the bytes
      downloaded, a space, and the last component of the path it writes. */
  lemma DownloadTextLayout(d: Download)
    ensures var r := DownloadText(d); var p := BytesPretty(d.downloadedBytes);
      |r| > |p| && r[..|p|] == p && r[|p|] == ' ' &&
      r[|p| + 1..] == PathFileName(d.path) && '/' !in r[|p| + 1..]
  {
  }

  function FeedThing(f: Feed): Thing { Thing(FeedText(f), FeedStyle(f)) }

  function EpisodeThing(e: Episode): Thing { Thing(EpisodeText(e), EpisodeStyle(e)) }

  function HeaderThing(h: Header): Thing { Thing(HeaderText(h), Normal) }

  function DownloadThing(d: Download): Thing { Thing(DownloadText(d), Normal) }

  function LogThing(s: string): Thing { Thing(s, Normal) }

  /** `get_things`: one display row per item, in order. */
  function GetThings<T>(items: seq<T>, thing: T -> Thing): (r: seq<Thing>)
    ensures |r| == |items|
    ensures forall i :: 0 <= i < |items| ==> r[i] == thing(items[i])
  {
    if items == [] then [] else [thing(items[0])] + GetThings(items[1..], thing)
  }

  /** What `crossterm_styles` produces: the text cut to at most maxLength
      characters, and whether it is painted bold. */
  datatype StyledContent = StyledContent(text: string, bold: bool)

  function CrosstermStyles(t: Thing, maxLength: nat): (r: StyledContent)
    ensures |r.text| <= maxLength && |r.text| <= |t.text| && r.text == t.text[..|r.text|]
    ensures |t.text| <= maxLength ==> r.text == t.text
    ensures r.bold <==> t.style == Bold
  {
    StyledContent(Truncate(t.text, maxLength), t.style == Bold)
  }

  // ---------------------------------------------------------------------
  // The rows a list shows

  /** The slice `things[start..end]` of a list that is painted. */
  datatype Window = Window(start: nat, end: nat)

  /** The window of `ThingList::draw` on a canvas of the given height: the
      list is scrolled only as far as needed to bring the cursor onto the
      last row. An empty list paints nothing. */
  function DrawWindow(selected: nat, len: nat, height: nat): (r: Option<Window>)
    ensures r.None? <==> len == 0
    ensures r.Some? ==> r.value.start <= r.value.end <= len
    ensures r.Some? ==> r.value.end - r.value.start == if height <= len then height else len
    ensures r.Some? && selected < len && height > 0 ==> r.value.start <= selected < r.value.end
    ensures r.Some? && r.value.start > 0 ==> r.value.end == if selected + 1 <= len then selected + 1 else len
    ensures r.Some? && selected >= len ==> r.value.end == len
  {
    if len == 0 then None
    else
      var end := if selected + 1 >= height then selected + 1 else height;
      var end := if end <= len then end else len;
      var start := if end > height then end - height else 0;
      Some(Window(start, end))
  }
}

=== FILE: keymap.dfy ===
/** The input events of the tuikit terminal library, as far as the key
    decoder looks at them: keys, a resize, and everything else. */
module Tuikit {
  datatype Key =
    | Char(c: char)
    | Ctrl(c: char)
    | Alt(c: char)
    | F(n: nat)
    | Up | Down | Left | Right
    | PageUp | PageDown | Home | End
    | Enter | ESC | Tab | BackTab | Backspace | Delete | Insert
    | Null

  datatype Event =
    | Key(key: Key)
    | Resize(width: nat, height: nat)
    | Restarted
    | User
    | OtherEvent
}

/** The input events of the crossterm terminal library, as far as the key
    decoder looks at them. A key event carries its modifier keys. */
module Crossterm {
  /** An unsigned 16-bit terminal dimension. */
  type U16 = n: nat | n < 0x1_0000

  datatype KeyCode =
    | Char(c: char)
    | F(n: nat)
    | Up | Down | Left | Right
    | PageUp | PageDown | Home | End
    | Enter | Esc | Tab | BackTab | Backspace | Delete | Insert
    | Null

  datatype Modifier = Shift | Control | Alt

  datatype KeyEvent = KeyEvent(code: KeyCode, modifiers: set<Modifier>)

  datatype Event =
    | Key(event: KeyEvent)
    | Mouse(column: U16, row: U16)
    | Resize(width: U16, height: U16)
    | FocusGained
    | FocusLost
    | Paste(text: string)
}

/** The application's commands and the two decoders that turn library
    input events into them (src/keymap.rs). */
module Keymap {
  import Tuikit
  import Crossterm
  import opened General

  datatype KeyMap =
    | Episodes | Feeds | Downloads | Log | Headers | Download | Refresh | Quit
    | Up | Down | PageUp | PageDown | Home | End | Right | Left | Enter
    | Resize(width: nat, height: nat)

  /** The letter bindings, as one table. */
  const CharBindings: map<char, KeyMap> := map[
    'e' := Episodes, 'f' := Feeds, 'o' := Downloads, 'l' := Log,
    'h' := KeyMap.Headers, 'd' := KeyMap.Download, 'r' := Refresh, 'q' := Quit]

  /** The bindings of tuikit's named (non-letter) keys, as one table:
      the command of each bound key, None for the others. */
  function TuikitNamedBinding(k: Tuikit.Key): Option<KeyMap>
  {
    match k
    case Up => Some(Up)
    case Down => Some(Down)
    case PageUp => Some(PageUp)
    case PageDown => Some(PageDown)
    case Home => Some(Home)
    case End => Some(End)
    case Right => Some(Right)
    case Left => Some(Left)
    case Enter => Some(Enter)
    case ESC => Some(Quit)
    case _ => None
  }

  /** The bindings of crossterm's named (non-letter) key codes, as one table. */
  function CrosstermNamedBinding(k: Crossterm.KeyCode): Option<KeyMap>
  {
    match k
    case Up => Some(Up)
    case Down => Some(Down)
    case PageUp => Some(PageUp)
    case PageDown => Some(PageDown)
    case Home => Some(Home)
    case End => Some(End)
    case Right => Some(Right)
    case Left => Some(Left)
    case Enter => Some(Enter)
    case Esc => Some(Quit)
    case _ => None
  }

  /** `from_tuikit_event`. Only plain character keys are bound: tuikit
      reports Ctrl and Alt combinations as separate keys. */
  function FromTuikitEvent(event: Tuikit.Event): (r: Option<KeyMap>)
    ensures r == Some(Quit) <==> event == Tuikit.Key(Tuikit.Char('q')) || event == Tuikit.Key(Tuikit.ESC)
    ensures event.Resize? <==> r.Some? && r.value.Resize?
    ensures event.Resize? ==> r == Some(Resize(event.width, event.height))
    ensures event.Key? && TuikitNamedBinding(event.key).Some? ==> r == TuikitNamedBinding(event.key)
    ensures event.Key? && event.key.Char? && event.key.c in CharBindings ==> r == Some(CharBindings[event.key.c])
    ensures r.None? <==>
      (!event.Resize? && !(event.Key? && (TuikitNamedBinding(event.key).Some? || (event.key.Char? && event.key.c in CharBindings))))
  {
    match event
    case Key(Char('e')) => Some(Episodes)
    case Key(Char('f')) => Some(Feeds)
    case Key(Char('o')) => Some(Downloads)
    case Key(Char('l')) => Some(Log)
    case Key(Char('h')) => Some(KeyMap.Headers)
    case Key(Char('d')) => Some(KeyMap.Download)
    case Key(Char('r')) => Some(Refresh)
    case Key(Char('q')) => Some(Quit)
    case Key(Up) => Some(Up)
    case Key(Down) => Some(Down)
    case Key(PageUp) => Some(PageUp)
    case Key(PageDown) => Some(PageDown)
    case Key(Home) => Some(Home)
    case Key(End) => Some(End)
    case Key(Right) => Some(Right)
    case Key(Left) => Some(Left)
    case Key(Enter) => Some(Enter)
    case Key(ESC) => Some(Quit)
    case Resize(width, height) => Some(Resize(width, height))
    case _ => None
  }

  /** `from_crossterm_event`. A key event matches whatever its modifiers. */
  function FromCrosstermEvent(event: Crossterm.Event): (r: Option<KeyMap>)
    ensures r == Some(Quit) <==> event.Key? && (event.event.code == Crossterm.Char('q') || event.event.code == Crossterm.Esc)
    ensures event.Resize? <==> r.Some? && r.value.Resize?
    ensures event.Resize? ==> r == Some(Resize(event.width, event.height))
    ensures event.Key? && CrosstermNamedBinding(event.event.code).Some? ==> r == CrosstermNamedBinding(event.event.code)
    ensures event.Key? && event.event.code.Char? && event.event.code.c in CharBindings ==> r == Some(CharBindings[event.event.code.c])
    ensures r.None? <==>
      (!event.Resize? && !(event.Key? && (CrosstermNamedBinding(event.event.code).Some? ||
                                          (event.event.code.Char? && event.event.code.c in CharBindings))))
  {
    match event
    case Key(KeyEvent(Char('e'), _)) => Some(Episodes)
    case Key(KeyEvent(Char('f'), _)) => Some(Feeds)
    case Key(KeyEvent(Char('o'), _)) => Some(Downloads)
    case Key(KeyEvent(Char('l'), _)) => Some(Log)
    case Key(KeyEvent(Char('h'), _)) => Some(KeyMap.Headers)
    case Key(KeyEvent(Char('d'), _)) => Some(KeyMap.Download)
    case Key(KeyEvent(Char('r'), _)) => Some(Refresh)
    case Key(KeyEvent(Char('q'), _)) => Some(Quit)
    case Key(KeyEvent(Up, _)) => Some(Up)
    case Key(KeyEvent(Down, _)) => Some(Down)
    case Key(KeyEvent(PageUp, _)) => Some(PageUp)
    case Key(KeyEvent(PageDown, _)) => Some(PageDown)
    case Key(KeyEvent(Home, _)) => Some(Home)
    case Key(KeyEvent(End, _)) => Some(End)
    case Key(KeyEvent(Right, _)) => Some(Right)
    case Key(KeyEvent(Left, _)) => Some(Left)
    case Key(KeyEvent(Enter, _)) => Some(Enter)
    case Key(KeyEvent(Esc, _)) => Some(Quit)
    case Resize(width, height) => Some(Resize(width, height))
    case _ => None
  }

  /** The crossterm key code that names the same key as a tuikit key, for
      the keys both libraries have under one name. */
  function CrosstermCode(k: Tuikit.Key): Option<Crossterm.KeyCode>
  {
    match k
    case Char(c) => Some(Crossterm.Char(c))
    case F(n) => Some(Crossterm.F(n))
    case Up => Some(Crossterm.Up)
    case Down => Some(Crossterm.Down)
    case Left => Some(Crossterm.Left)
    case Right => Some(Crossterm.Right)
    case PageUp => Some(Crossterm.PageUp)
    case PageDown => Some(Crossterm.PageDown)
    case Home => Some(Crossterm.Home)
    case End => Some(Crossterm.End)
    case Enter => Some(Crossterm.Enter)
    case ESC => Some(Crossterm.Esc)
    case Tab => Some(Crossterm.Tab)
    case BackTab => Some(Crossterm.BackTab)
    case Backspace => Some(Crossterm.Backspace)
    case Delete => Some(Crossterm.Delete)
    case Insert => Some(Crossterm.Insert)
    case Null => Some(Crossterm.Null)
    case Ctrl(_) => None
    case Alt(_) => None
  }

  /** A character key decodes to its entry in the binding table in both
      decoders, whatever the crossterm modifiers. */
  lemma CharKeysFollowTable(c: char, modifiers: set<Crossterm.Modifier>)
    ensures FromTuikitEvent(Tuikit.Key(Tuikit.Char(c))) ==
      (if c in CharBindings then Some(CharBindings[c]) else None)
    ensures FromCrosstermEvent(Crossterm.Key(Crossterm.KeyEvent(Crossterm.Char(c), modifiers))) ==
      (if c in CharBindings then Some(CharBindings[c]) else None)
  {
  }

  /** The two decoders agree on every key the libraries share and on resizes. */
  lemma DecodersAgree(k: Tuikit.Key, modifiers: set<Crossterm.Modifier>, width: Crossterm.U16, height: Crossterm.U16)
    ensures CrosstermCode(k).Some? ==>
      FromCrosstermEvent(Crossterm.Key(Crossterm.KeyEvent(CrosstermCode(k).value, modifiers))) ==
      FromTuikitEvent(Tuikit.Key(k))
    ensures FromCrosstermEvent(Crossterm.Resize(width, height)) == FromTuikitEvent(Tuikit.Resize(width, height))
  {
    if k.Char? {
      CharKeysFollowTable(k.c, modifiers);
    }
  }
}

=== FILE: store.dfy ===
/** Loading feeds and their episodes from the configuration folder
    (src/main.rs, `update_feed` and `load_feeds`). The file system is a
    value: the feed list read from feeds.xml, what each RSS file parses
    to, and which files exist. */
module Store {
  import opened General

  /** One `<feed>` entry of feeds.xml. */
  datatype FeedEntry = FeedEntry(name: string, folder: string, saveFolder: string, url: string)

  /** The file system as the loader sees it: the configuration folder, the
      parsed feed list, the episodes an RSS file at a path parses to (None
      when it cannot be read or parsed), and which paths exist. */
  datatype Env = Env(
    configPath: string,
    feedList: seq<FeedEntry>,
    docs: string -> Option<seq<Episode>>,
    exists_: string -> bool)

  /** A feed as the XML deserializer builds it: no episodes yet. */
  function NewFeed(e: FeedEntry): (f: Feed)
    ensures f.name == e.name && f.folder == e.folder && f.saveFolder == e.saveFolder && f.url == e.url
    ensures f.episodes == EmptyList() && Attached(f)
  {
    Feed(e.name, e.folder, e.saveFolder, e.url, EmptyList())
  }

  /** Where a feed's RSS file is kept: its save path inside the configuration folder. */
  function RssPath(f: Feed, configPath: string): (r: string)
    ensures PathFileName(r) == PathFileName(FeedSavePath(f))
  {
    JoinPath(configPath, FeedSavePath(f))
  }

  /** A feed's file is "<folder>.rss" inside the configuration folder, unless
      the folder name is itself an absolute path. */
  lemma RssPathShape(f: Feed, configPath: string)
    ensures |f.folder| > 0 && f.folder[0] == '/' ==> RssPath(f, configPath) == f.folder + ".rss"
    ensures !(|f.folder| > 0 && f.folder[0] == '/') ==>
      var r := RssPath(f, configPath);
      |r| == |configPath| + |f.folder| + 4 + (if EndsInSeparator(configPath) then 0 else 1) &&
      r[..|configPath|] == configPath && r[|r| - |f.folder| - 4..] == f.folder + ".rss" &&
      (!EndsInSeparator(configPath) ==> r[|configPath|] == '/')
  {
    JoinPathShape(configPath, FeedSavePath(f));
  }

  // ---------------------------------------------------------------------
  // Episode order

  datatype Ordering = Less | Equal | Greater

  function Cmp(a: int, b: int): Ordering
  {
    if a < b then Less else if a == b then Equal else Greater
  }

  /** The comparator `update_feed` sorts with: two dated episodes compare by
      date, the later one first; any pair involving an undated episode
      compares Greater. */
  function CompareEpisodes(e1: Episode, e2: Episode): (r: Ordering)
    ensures r == Less <==> e1.pubDate.Some? && e2.pubDate.Some? && e1.pubDate.value > e2.pubDate.value
    ensures r == Equal <==> e1.pubDate.Some? && e2.pubDate.Some? && e1.pubDate.value == e2.pubDate.value
  {
    match (e1.pubDate, e2.pubDate)
    case (Some(date1), Some(date2)) => Cmp(date2, date1)
    case _ => Greater
  }

  /** On dated episodes the comparator is a total preorder (episodes of the
      same date tie): reversing the arguments reverses the answer, and it
      is transitive. */
  lemma CompareDatedIsTotal(e1: Episode, e2: Episode, e3: Episode)
    requires e1.pubDate.Some? && e2.pubDate.Some? && e3.pubDate.Some?
    ensures CompareEpisodes(e1, e2) == Less <==> CompareEpisodes(e2, e1) == Greater
    ensures CompareEpisodes(e1, e2) == Equal <==> CompareEpisodes(e2, e1) == Equal
    ensures CompareEpisodes(e1, e2) == Less && CompareEpisodes(e2, e3) == Less ==> CompareEpisodes(e1, e3) == Less
  {
  }

  /** An undated episode compares Greater against every episode in both
      argument orders, itself included, so the comparator is not even a
      preorder once an episode lacks a date. */
  lemma UndatedComparesGreaterBothWays(u: Episode, e: Episode)
    requires u.pubDate.None?
    ensures CompareEpisodes(u, e) == Greater && CompareEpisodes(e, u) == Greater
    ensures CompareEpisodes(u, u) == Greater
  {
  }

  /** `is_less` of the sort: e1 must move in front of e2. */
  predicate Precedes(e1: Episode, e2: Episode)
  {
    CompareEpisodes(e1, e2) == Less
  }

  /** Inserts e into a sorted run from the right: e moves left past every
      element it must precede and stops at the first one it need not. */
  function Insert(e: Episode, run: seq<Episode>): (r: seq<Episode>)
    ensures multiset(r) == multiset(run) + multiset{e}
    ensures |r| == |run| + 1
  {
    if run == [] then [e]
    else
      var init, last := run[..|run| - 1], run[|run| - 1];
      assert run == init + [last];
      if Precedes(e, last) then Insert(e, init) + [last] else run + [e]
  }

  /** The stable sort of `update_feed`, as an insertion sort that inserts
      each element in turn into the sorted prefix before it. */
  function SortEpisodes(s: seq<Episode>): (r: seq<Episode>)
    ensures multiset(r) == multiset(s)
    ensures |r| == |s|
  {
    if s == [] then []
    else
      assert s == s[..|s| - 1] + [s[|s| - 1]];
      Insert(s[|s| - 1], SortEpisodes(s[..|s| - 1]))
  }

  predicate AllDated(s: seq<Episode>)
  {
    forall i :: 0 <= i < |s| ==> s[i].pubDate.Some?
  }

  /** Later episodes before earlier ones. */
  predicate NewestFirst(s: seq<Episode>)
    requires AllDated(s)
  {
    forall i, j :: 0 <= i < j < |s| ==> s[i].pubDate.value >= s[j].pubDate.value
  }

  lemma DatedPermutation(a: seq<Episode>, b: seq<Episode>)
    requires multiset(a) == multiset(b) && AllDated(b)
    ensures AllDated(a)
  {
    forall i | 0 <= i < |a|
      ensures a[i].pubDate.Some?
    {
      assert a[i] in multiset(a);
    }
  }

  lemma {:induction false} InsertKeepsOrder(e: Episode, run: seq<Episode>)
    requires e.pubDate.Some? && AllDated(run) && NewestFirst(run)
    ensures AllDated(Insert(e, run)) && NewestFirst(Insert(e, run))
    decreases |run|
  {
    var r := Insert(e, run);
    DatedPermutation(r, run + [e]);
    if run != [] && Precedes(e, run[|run| - 1]) {
      var init := run[..|run| - 1];
      InsertKeepsOrder(e, init);
      var last := run[|run| - 1];
      var ins := Insert(e, init);
      assert r == ins + [last];
      forall k | 0 <= k < |ins|
        ensures ins[k].pubDate.value >= last.pubDate.value
      {
        assert ins[k] in multiset(init) + multiset{e};
        if ins[k] != e {
          assert ins[k] in init;
        }
      }
    }
  }

  /** Sorting episodes that all carry a date puts them newest first. */
  lemma {:induction false} SortedNewestFirst(s: seq<Episode>)
    requires AllDated(s)
    ensures AllDated(SortEpisodes(s)) && NewestFirst(SortEpisodes(s))
  {
    if s != [] {
      var init := s[..|s| - 1];
      assert AllDated(init);
      SortedNewestFirst(init);
      InsertKeepsOrder(s[|s| - 1], SortEpisodes(init));
    }
  }

  /** The episodes of s whose date is d (None: the undated ones), in the
      order s has them. */
  function WithDate(s: seq<Episode>, d: Option<int>): (r: seq<Episode>)
    ensures |r| <= |s|
  {
    if s == [] then []
    else WithDate(s[..|s| - 1], d) + (if s[|s| - 1].pubDate == d then [s[|s| - 1]] else [])
  }

  /** Every episode of a date class has that date and comes from s. */
  lemma {:induction false} WithDateMember(s: seq<Episode>, d: Option<int>, e: Episode)
    requires e in WithDate(s, d)
    ensures e in s && e.pubDate == d
  {
    if s != [] {
      var init := s[..|s| - 1];
      if e in WithDate(init, d) {
        WithDateMember(init, d, e);
      }
    }
  }

  lemma WithDateAppend(s: seq<Episode>, e: Episode, d: Option<int>)
    ensures WithDate(s + [e], d) == WithDate(s, d) + (if e.pubDate == d then [e] else [])
  {
    assert (s + [e])[..|s|] == s;
  }

  /** Inserting e appends it to the episodes of its own date and leaves the
      order of every date class as it was: it only moves past episodes of
      a strictly older date. */
  lemma {:induction false} InsertKeepsDateOrder(e: Episode, run: seq<Episode>, d: Option<int>)
    ensures WithDate(Insert(e, run), d) == WithDate(run, d) + (if e.pubDate == d then [e] else [])
    decreases |run|
  {
    if run == [] {
      WithDateAppend([], e, d);
    } else {
      var init, last := run[..|run| - 1], run[|run| - 1];
      assert run == init + [last];
      if Precedes(e, last) {
        InsertKeepsDateOrder(e, init, d);
        WithDateAppend(Insert(e, init), last, d);
        WithDateAppend(init, last, d);
        assert !(e.pubDate == d && last.pubDate == d);
      } else {
        WithDateAppend(run, e, d);
      }
    }
  }

  /** The sort is stable: episodes with equal dates, and the undated ones,
      come out in the order they went in. */
  lemma {:induction false} SortKeepsDateOrder(s: seq<Episode>, d: Option<int>)
    ensures WithDate(SortEpisodes(s), d) == WithDate(s, d)
  {
    if s != [] {
      var init := s[..|s| - 1];
      SortKeepsDateOrder(init, d);
      InsertKeepsDateOrder(s[|s| - 1], SortEpisodes(init), d);
    }
  }

  /** In a newest-first sequence the last episode is the oldest. */
  lemma LastIsOldest(s: seq<Episode>, x: Episode) returns (date: int)
    requires AllDated(s) && NewestFirst(s) && x in s
    ensures x.pubDate == Some(date) && date >= s[|s| - 1].pubDate.value
  {
    var k :| 0 <= k < |s| && s[k] == x;
    assert k < |s| - 1 || k == |s| - 1;
    date := x.pubDate.value;
  }

  /** The last episode of s is the last of its date class. */
  lemma LastOfDateClass(s: seq<Episode>)
    requires s != []
    ensures var w := WithDate(s, s[|s| - 1].pubDate); w != [] && w[|w| - 1] == s[|s| - 1]
  {
    var x := s[|s| - 1];
    assert s == s[..|s| - 1] + [x];
    WithDateAppend(s[..|s| - 1], x, x.pubDate);
  }

  /** Dropping the last episode keeps a sequence dated and newest first. */
  lemma DropLastNewestFirst(s: seq<Episode>)
    requires s != [] && AllDated(s) && NewestFirst(s)
    ensures AllDated(s[..|s| - 1]) && NewestFirst(s[..|s| - 1])
  {
  }

  /** Removing the same last episode from two sequences that agree on
      every date class leaves two sequences that still agree. */
  lemma DropLastKeepsDateClasses(ai: seq<Episode>, bi: seq<Episode>, x: Episode)
    requires forall d :: WithDate(ai + [x], d) == WithDate(bi + [x], d)
    ensures forall d :: WithDate(ai, d) == WithDate(bi, d)
  {
    forall d
      ensures WithDate(ai, d) == WithDate(bi, d)
    {
      WithDateAppend(ai, x, d);
      WithDateAppend(bi, x, d);
      var p, q := WithDate(ai, d), WithDate(bi, d);
      var e := if x.pubDate == d then [x] else [];
      assert p + e == q + e;
      assert p == (p + e)[..|p|] && q == (q + e)[..|q|];
    }
  }

  /** The last episode of s belongs to any sequence with its date class. */
  lemma LastInDateClass(s: seq<Episode>, t: seq<Episode>)
    requires s != [] && WithDate(s, s[|s| - 1].pubDate) == WithDate(t, s[|s| - 1].pubDate)
    ensures s[|s| - 1] in t
  {
    LastOfDateClass(s);
    var w := WithDate(t, s[|s| - 1].pubDate);
    assert w[|w| - 1] == s[|s| - 1];
    WithDateMember(t, s[|s| - 1].pubDate, s[|s| - 1]);
  }

  /** Two nonempty newest-first sequences that agree on the date classes of
      their last episodes end in the same episode. */
  lemma SameLastEpisode(a: seq<Episode>, b: seq<Episode>)
    requires AllDated(a) && NewestFirst(a) && AllDated(b) && NewestFirst(b)
    requires a != [] && b != []
    requires WithDate(a, a[|a| - 1].pubDate) == WithDate(b, a[|a| - 1].pubDate)
    requires WithDate(a, b[|b| - 1].pubDate) == WithDate(b, b[|b| - 1].pubDate)
    ensures a[|a| - 1] == b[|b| - 1]
  {
    var x, y := a[|a| - 1], b[|b| - 1];
    LastInDateClass(a, b);
    LastInDateClass(b, a);
    var dx := LastIsOldest(b, x);
    var dy := LastIsOldest(a, y);
    assert dx == dy;
    var w := WithDate(a, x.pubDate);
    assert w[|w| - 1] == x by { LastOfDateClass(a); }
    assert w == WithDate(b, y.pubDate);
    assert w[|w| - 1] == y by { LastOfDateClass(b); }
  }

  /** Two newest-first sequences of dated episodes that agree on every date
      class are the same sequence. */
  lemma {:induction false} DateClassesDetermineOrder(a: seq<Episode>, b: seq<Episode>)
    requires AllDated(a) && NewestFirst(a) && AllDated(b) && NewestFirst(b)
    requires forall d :: WithDate(a, d) == WithDate(b, d)
    ensures a == b
    decreases |a|
  {
    if a != [] && b != [] {
      assert WithDate(a, a[|a| - 1].pubDate) == WithDate(b, a[|a| - 1].pubDate);
      assert WithDate(a, b[|b| - 1].pubDate) == WithDate(b, b[|b| - 1].pubDate);
      SameLastEpisode(a, b);
      var x := a[|a| - 1];
      var ai, bi := a[..|a| - 1], b[..|b| - 1];
      assert a == ai + [x] && b == bi + [x];
      DropLastKeepsDateClasses(ai, bi, x);
      DropLastNewestFirst(a);
      DropLastNewestFirst(b);
      DateClassesDetermineOrder(ai, bi);
    } else if a != [] {
      LastOfDateClass(a);
    } else if b != [] {
      LastOfDateClass(b);
    }
  }

  /** On episodes that all carry a date, SortEpisodes is exactly the result
      of any stable sort by the comparator: any newest-first arrangement
      that keeps each date class in input order is this one. */
  lemma StableSortIsSortEpisodes(s: seq<Episode>, t: seq<Episode>)
    requires AllDated(s) && AllDated(t) && NewestFirst(t)
    requires forall d :: WithDate(t, d) == WithDate(s, d)
    ensures t == SortEpisodes(s)
  {
    SortedNewestFirst(s);
    forall d
      ensures WithDate(t, d) == WithDate(SortEpisodes(s), d)
    {
      SortKeepsDateOrder(s, d);
    }
    DateClassesDetermineOrder(t, SortEpisodes(s));
  }

  /** An undated episode stops the insertion: an episode appended after an
      undated last element stays at the end, whatever its date. */
  lemma UndatedStopsInsertion(e: Episode, run: seq<Episode>)
    requires run != [] && run[|run| - 1].pubDate.None?
    ensures Insert(e, run) == run + [e]
  {
  }

  // ---------------------------------------------------------------------
  // Loading one feed

  predicate AllAttached(s: seq<Episode>)
  {
    forall i :: 0 <= i < |s| ==> s[i].feed.Some?
  }

  /** Each parsed episode gets a reference to the feed it belongs to. */
  function AttachAll(eps: seq<Episode>, saveFolder: string): (r: seq<Episode>)
    ensures |r| == |eps| && AllAttached(r)
    ensures forall i :: 0 <= i < |eps| ==> r[i] == eps[i].(feed := Some(saveFolder))
  {
    seq(|eps|, i requires 0 <= i < |eps| => eps[i].(feed := Some(saveFolder)))
  }

  lemma AttachedPermutation(a: seq<Episode>, b: seq<Episode>)
    requires multiset(a) == multiset(b) && AllAttached(b)
    ensures AllAttached(a)
  {
    forall i | 0 <= i < |a|
      ensures a[i].feed.Some?
    {
      assert a[i] in multiset(a);
    }
  }

  lemma FlagAllSnoc(s: seq<Episode>, e: Episode, exists_: string -> bool)
    requires AllAttached(s) && e.feed.Some?
    ensures AllAttached(s + [e])
    ensures FlagAll(s + [e], exists_) == FlagAll(s, exists_) + [Flagged(e, exists_)]
  {
    assert FlagAll(s + [e], exists_)[..|s|] == FlagAll(s, exists_);
  }

  lemma {:induction false} InsertCommutesWithFlags(e: Episode, run: seq<Episode>, exists_: string -> bool)
    requires e.feed.Some? && AllAttached(run)
    ensures AllAttached(Insert(e, run))
    ensures Insert(Flagged(e, exists_), FlagAll(run, exists_)) == FlagAll(Insert(e, run), exists_)
    decreases |run|
  {
    AttachedPermutation(Insert(e, run), run + [e]);
    if run != [] {
      var init, last := run[..|run| - 1], run[|run| - 1];
      assert run == init + [last];
      FlagAllSnoc(init, last, exists_);
      if Precedes(e, last) {
        InsertCommutesWithFlags(e, init, exists_);
        FlagAllSnoc(Insert(e, init), last, exists_);
      } else {
        FlagAllSnoc(run, e, exists_);
      }
    }
  }

  /** The downloaded flags do not take part in the order, so flagging
      before or after sorting gives the same list. */
  lemma {:induction false} SortCommutesWithFlags(s: seq<Episode>, exists_: string -> bool)
    requires AllAttached(s)
    ensures AllAttached(SortEpisodes(s))
    ensures SortEpisodes(FlagAll(s, exists_)) == FlagAll(SortEpisodes(s), exists_)
  {
    AttachedPermutation(SortEpisodes(s), s);
    if s != [] {
      var init := s[..|s| - 1];
      var fs := FlagAll(s, exists_);
      assert FlagAll(init, exists_) == fs[..|fs| - 1];
      SortCommutesWithFlags(init, exists_);
      InsertCommutesWithFlags(s[|s| - 1], SortEpisodes(init), exists_);
    }
  }

  /** The feed after `update_feed`. When its RSS file cannot be loaded the
      feed stays as it was; otherwise its episodes are replaced by the
      parsed ones, attached, sorted and flagged, and the cursor is kept. */
  function Reloaded(f: Feed, env: Env): (g: Feed)
    ensures env.docs(RssPath(f, env.configPath)).None? ==> g == f
    ensures Attached(f) ==> Attached(g)
    ensures g.name == f.name && g.folder == f.folder && g.saveFolder == f.saveFolder && g.url == f.url
    ensures g.episodes.selectedIndex == f.episodes.selectedIndex
    ensures env.docs(RssPath(f, env.configPath)).Some? ==>
      var flagged := FlagAll(AttachAll(env.docs(RssPath(f, env.configPath)).value, f.saveFolder), env.exists_);
      g.episodes.things == SortEpisodes(flagged) &&
      multiset(g.episodes.things) == multiset(flagged)
  {
    match env.docs(RssPath(f, env.configPath))
    case None => f
    case Some(eps) =>
      var attached := AttachAll(eps, f.saveFolder);
      SortCommutesWithFlags(attached, env.exists_);
      Recheck(f.(episodes := f.episodes.(things := SortEpisodes(attached))), env.exists_)
  }

  /** After a reload from a file whose episodes all carry a date, the
      episodes are listed newest first and each is flagged by whether its
      file exists. */
  lemma ReloadedOrderAndFlags(f: Feed, env: Env)
    requires env.docs(RssPath(f, env.configPath)).Some?
    requires AllDated(env.docs(RssPath(f, env.configPath)).value)
    ensures var g := Reloaded(f, env);
      AllDated(g.episodes.things) && NewestFirst(g.episodes.things) &&
      forall i :: 0 <= i < |g.episodes.things| ==>
        g.episodes.things[i].feed == Some(f.saveFolder) &&
        g.episodes.things[i].downloaded == env.exists_(EpisodeSavePath(g.episodes.things[i]))
  {
    var eps := env.docs(RssPath(f, env.configPath)).value;
    var attached := AttachAll(eps, f.saveFolder);
    var flagged := FlagAll(attached, env.exists_);
    var g := Reloaded(f, env);
    assert AllDated(flagged) by {
      forall i | 0 <= i < |flagged|
        ensures flagged[i].pubDate.Some?
      {
        assert flagged[i].pubDate == eps[i].pubDate;
      }
    }
    SortedNewestFirst(flagged);
    forall i | 0 <= i < |g.episodes.things|
      ensures g.episodes.things[i].feed == Some(f.saveFolder)
      ensures g.episodes.things[i].downloaded == env.exists_(EpisodeSavePath(g.episodes.things[i]))
    {
      var x := g.episodes.things[i];
      assert x in multiset(flagged);
      var k :| 0 <= k < |flagged| && flagged[k] == x;
      assert x == Flagged(attached[k], env.exists_);
    }
  }

  /** `update_feed`: replaces the episodes, attaches each one to the feed in
      a loop, sorts them and checks which are downloaded. */
  method UpdateFeed(f: Feed, env: Env) returns (g: Feed)
    ensures g == Reloaded(f, env)
  {
    var rss := env.docs(RssPath(f, env.configPath));
    if rss.None? {
      return f;
    }
    var saveFolder := f.saveFolder;
    var eps := rss.value;
    var i := 0;
    while i < |eps|
      invariant 0 <= i <= |eps| == |rss.value|
      invariant forall k :: 0 <= k < i ==> eps[k] == rss.value[k].(feed := Some(saveFolder))
      invariant forall k :: i <= k < |eps| ==> eps[k] == rss.value[k]
    {
      eps := eps[i := eps[i].(feed := Some(saveFolder))];
      i := i + 1;
    }
    assert eps == AttachAll(rss.value, saveFolder);
    var sorted := f.(episodes := f.episodes.(things := SortEpisodes(eps)));
    AttachedPermutation(SortEpisodes(eps), eps);
    g := CheckEpisodesDownloaded(sorted, env.exists_);
  }

  // ---------------------------------------------------------------------
  // Loading all feeds

  /** The feeds after `load_feeds`: one per entry of the feed list, in
      order, each reloaded from its RSS file. */
  function LoadedFeeds(env: Env): (r: seq<Feed>)
    ensures |r| == |env.feedList|
    ensures forall i :: 0 <= i < |r| ==>
      r[i] == Reloaded(NewFeed(env.feedList[i]), env) && Attached(r[i]) &&
      r[i].name == env.feedList[i].name && r[i].url == env.feedList[i].url
  {
    seq(|env.feedList|, i requires 0 <= i < |env.feedList| => Reloaded(NewFeed(env.feedList[i]), env))
  }

  /** `load_feeds`: updates every listed feed in turn. */
  method LoadFeeds(env: Env) returns (feeds: seq<Feed>)
    ensures feeds == LoadedFeeds(env)
  {
    feeds := [];
    var i := 0;
    while i < |env.feedList|
      invariant 0 <= i <= |env.feedList|
      invariant feeds == LoadedFeeds(env)[..i]
    {
      var f := UpdateFeed(NewFeed(env.feedList[i]), env);
      feeds := feeds + [f];
      i := i + 1;
    }
  }
}

=== FILE: text.dfy ===
/** Character-string helpers the rest of the model is written with: decimal
    rendering of numbers (what `format!("{}", n)` prints), a decimal reader
    that inverts it, substring search (`str::contains`), lower-casing, and
    the character-prefix cut and right padding applied before text is
    painted. Strings are sequences of Unicode scalar values, as Rust's
    `char`s are. */
module Text {

  predicate IsDigit(c: char) { '0' <= c <= '9' }

  predicate AllDigits(s: string) { forall i :: 0 <= i < |s| ==> IsDigit(s[i]) }

  function DigitValue(c: char): (d: nat)
    requires IsDigit(c)
    ensures d < 10
  {
    c as int - '0' as int
  }

  function DigitChar(d: nat): (c: char)
    requires d < 10
    ensures IsDigit(c) && DigitValue(c) == d
  {
    "0123456789"[d]
  }

  /** Decimal digits of n without leading zeros, as Rust formats an unsigned integer. */
  function NatToString(n: nat): (r: string)
    ensures |r| >= 1 && AllDigits(r)
    ensures r[0] == '0' ==> n == 0
  {
    if n < 10 then [DigitChar(n)] else NatToString(n / 10) + [DigitChar(n % 10)]
  }

  /** Decimal reading of a digit string; the inverse of NatToString. */
  function ParseNat(s: string): nat
    requires AllDigits(s)
  {
    if s == [] then 0 else ParseNat(s[..|s| - 1]) * 10 + DigitValue(s[|s| - 1])
  }

  lemma {:induction false} ParseNatToString(n: nat)
    ensures ParseNat(NatToString(n)) == n
  {
    if n >= 10 {
      var s := NatToString(n);
      assert s[..|s| - 1] == NatToString(n / 10);
      ParseNatToString(n / 10);
    }
  }

  /** Decimal rendering of a signed integer (a leading '-' for negatives). */
  function IntToString(i: int): (r: string)
    ensures |r| >= 1
  {
    if i < 0 then "-" + NatToString(-i) else NatToString(i)
  }

  predicate StartsWith(s: string, prefix: string)
  {
    |prefix| <= |s| && s[..|prefix|] == prefix
  }

  /** `str::contains` with a string pattern, searched from the left. */
  predicate Contains(s: string, pattern: string)
    decreases |s|
  {
    StartsWith(s, pattern) || (|s| > 0 && Contains(s[1..], pattern))
  }

  /** The pattern occurs in s starting at position i. */
  predicate OccursAt(s: string, pattern: string, i: int)
  {
    0 <= i && i + |pattern| <= |s| && s[i..i + |pattern|] == pattern
  }

  /** An occurrence at i + 1 in s is an occurrence at i in the tail of s. */
  lemma OccursInTail(s: string, pattern: string, i: int)
    requires |s| > 0 && 0 <= i
    ensures OccursAt(s, pattern, i + 1) <==> OccursAt(s[1..], pattern, i)
  {
    if i + 1 + |pattern| <= |s| {
      assert s[i + 1..i + 1 + |pattern|] == s[1..][i..i + |pattern|];
    }
  }

  /** Contains holds exactly when the pattern occurs at some position of s. */
  lemma {:induction false} ContainsIffOccurs(s: string, pattern: string)
    ensures Contains(s, pattern) <==> exists i :: OccursAt(s, pattern, i)
    decreases |s|
  {
    if StartsWith(s, pattern) {
      assert OccursAt(s, pattern, 0);
    } else if |s| > 0 {
      ContainsIffOccurs(s[1..], pattern);
      if Contains(s[1..], pattern) {
        var i :| OccursAt(s[1..], pattern, i);
        OccursInTail(s, pattern, i);
      } else {
        forall i | OccursAt(s, pattern, i)
          ensures false
        {
          OccursInTail(s, pattern, i - 1);
        }
      }
    }
  }

  /** Lower-cases one character; only the ASCII letters A-Z are mapped. */
  function LowerChar(c: char): char
  {
    if 'A' <= c <= 'Z' then (c as int + 32) as char else c
  }

  function Lower(s: string): (r: string)
    ensures |r| == |s|
    ensures forall i :: 0 <= i < |s| ==> r[i] == LowerChar(s[i])
  {
    seq(|s|, i requires 0 <= i < |s| => LowerChar(s[i]))
  }

  /** The first n characters of s, or all of s when it is no longer than n:
      the cut made with `char_indices().nth(n)` before text is painted. */
  function Truncate(s: string, n: nat): (r: string)
    ensures |r| == if |s| <= n then |s| else n
    ensures r == s[..|r|]
  {
    if |s| <= n then s else s[..n]
  }

  function Spaces(n: nat): (r: string)
    ensures |r| == n && forall i :: 0 <= i < n ==> r[i] == ' '
  {
    seq(n, _ => ' ')
  }

  /** `format!("{:width$}", s)`: s followed by spaces up to width characters. */
  function PadRight(s: string, width: nat): (r: string)
    ensures |r| == if |s| >= width then |s| else width
    ensures r[..|s|] == s
    ensures forall i :: |s| <= i < |r| ==> r[i] == ' '
  {
    if |s| >= width then s else s + Spaces(width - |s|)
  }
}

=== FILE: ui_crossterm.dfy ===
/** The crossterm painter (src/ui_crossterm.rs): the list rows above the
    status row, scrolled so that the cursor stays in view, and the status
    row itself. The terminal is modelled as the sequence of rows written. */
module UiCrossterm {
  import opened Text
  import opened General

  /** The window of `update`. Rows 0 to height - 2 hold the list and the last
      row holds the status, so the list scrolls once the cursor would reach
      the status row. None is the panic of the slice `things[start..end]`
      when start exceeds end (an arithmetic underflow cannot happen first:
      with height 0 the start is at least 2). */
  function VisibleWindow(selected: nat, len: nat, height: nat): (r: Option<Window>)
    ensures r.None? <==> height == 0 || selected + 2 > len + height
    ensures r.Some? ==> r.value.start <= r.value.end <= len && r.value.end - r.value.start <= height - 1
    ensures r.Some? ==> r.value.end - r.value.start == if len - r.value.start < height - 1 then len - r.value.start else height - 1
    ensures r.Some? && selected < len && height >= 2 ==> r.value.start <= selected < r.value.end
    ensures r.Some? && r.value.start > 0 ==> selected == r.value.start + height - 2
    ensures r.Some? && selected + 2 > height ==> r.value.start == selected + 2 - height
  {
    var offset := selected - height + 2;
    var start := if offset < 0 then 0 else offset;
    var end := if len > start + height - 1 then start + height - 1 else len;
    if start > end then None else Some(Window(start, end))
  }

  /** A painted terminal row: a list entry, or a row that was cleared. */
  datatype Row =
    | Entry(content: StyledContent, highlighted: bool)
    | Cleared

  /** The rows above the status row as `update` leaves them: the window's
      entries from the top, each cut to the width and the one under the
      cursor highlighted, then cleared rows. */
  predicate Painted(dtlist: ThingList<Thing>, height: nat, width: nat, screen: seq<Row>)
    requires VisibleWindow(dtlist.selectedIndex, |dtlist.things|, height).Some?
  {
    var w := VisibleWindow(dtlist.selectedIndex, |dtlist.things|, height).value;
    |screen| == height - 1 &&
    (forall k :: 0 <= k < w.end - w.start ==>
      screen[k] == Entry(CrosstermStyles(dtlist.things[w.start + k], width), w.start + k == dtlist.selectedIndex)) &&
    (forall k :: w.end - w.start <= k < height - 1 ==> screen[k] == Cleared)
  }

  /** `update`: paints the visible entries from the top, each cut to the
      width and the one under the cursor highlighted, then clears the rows
      down to the status row. None where `update` panics. */
  method Update(dtlist: ThingList<Thing>, height: nat, width: nat) returns (screen: Option<seq<Row>>)
    ensures screen.None? <==> VisibleWindow(dtlist.selectedIndex, |dtlist.things|, height).None?
    ensures screen.Some? ==> Painted(dtlist, height, width, screen.value)
    ensures screen.Some? && dtlist.HasCurrent() && height >= 2 ==>
      exists k :: 0 <= k < |screen.value| && screen.value[k] == Entry(CrosstermStyles(dtlist.Current(), width), true)
  {
    var window := VisibleWindow(dtlist.selectedIndex, |dtlist.things|, height);
    if window.None? {
      return None;
    }
    var start, end := window.value.start, window.value.end;
    var rows := PaintEntries(dtlist, start, end, height, width);
    rows := ClearRows(rows, height - 1);
    screen := Some(rows);
    if dtlist.HasCurrent() && height >= 2 {
      assert rows[dtlist.selectedIndex - start] == Entry(CrosstermStyles(dtlist.Current(), width), true);
    }
  }

  /** The first loop of `update`: the entries of `things[start..end]` from
      the top, the one under the cursor highlighted. It stops after row
      height - 2, which the slice never passes. */
  method PaintEntries(dtlist: ThingList<Thing>, start: nat, end: nat, height: nat, width: nat) returns (rows: seq<Row>)
    requires start <= end <= |dtlist.things| && end - start <= height - 1
    ensures |rows| == end - start
    ensures forall k :: 0 <= k < end - start ==>
      rows[k] == Entry(CrosstermStyles(dtlist.things[start + k], width), start + k == dtlist.selectedIndex)
  {
    rows := [];
    var index := 0;
    while index < end - start
      invariant 0 <= index <= end - start
      invariant |rows| == index
      invariant forall k :: 0 <= k < index ==>
        rows[k] == Entry(CrosstermStyles(dtlist.things[start + k], width), start + k == dtlist.selectedIndex)
    {
      var sc := CrosstermStyles(dtlist.things[start + index], width);
      rows := rows + [Entry(sc, start + index == dtlist.selectedIndex)];
      if index >= height - 2 {
        // the slice has at most height - 1 entries, so this is the last one
        index := index + 1;
        break;
      }
      index := index + 1;
    }
  }

  /** The second loop of `update`: clears the rows below the entries down
      to the status row. */
  method ClearRows(painted: seq<Row>, listRows: nat) returns (rows: seq<Row>)
    requires |painted| <= listRows
    ensures |rows| == listRows && forall k :: 0 <= k < |painted| ==> rows[k] == painted[k]
    ensures forall k :: |painted| <= k < listRows ==> rows[k] == Cleared
  {
    rows := painted;
    var row := |rows|;
    while row < listRows
      invariant |painted| <= row <= listRows
      invariant |rows| == row && forall k :: 0 <= k < |painted| ==> rows[k] == painted[k]
      invariant forall k :: |painted| <= k < row ==> rows[k] == Cleared
    {
      rows := rows + [Cleared];
      row := row + 1;
    }
  }

  /** `update_status`: the status text cut to the width and padded with
      spaces to exactly the width. */
  function StatusLine(status: string, width: nat): (r: string)
    ensures |r| == width
    ensures forall i :: 0 <= i < width ==> r[i] == if i < |status| then status[i] else ' '
  {
    PadRight(Truncate(status, width), width)
  }
}

=== FILE: view_machine.dfy ===
/** The event loop of src/main.rs as transitions of one state value: a key
    press, the draining of queued messages, the status refresh and one
    whole pass of the loop. The background work the loop starts (feed
    fetches, downloads, header probes) is recorded as a list of spawned
    tasks; what it later sends back arrives as messages. */
module ViewMachine {
  import opened General
  import Keymap
  import opened Store
  import opened UiCrossterm

  /** Which list the display shows. */
  datatype View = Feeds | Episodes | Headers | Downloads | Log

  /** Work handed to the async runtime. */
  datatype Task =
    | Probe(url: string)                           // `head`: fetch the response headers of a URL
    | DownloadThen(download: Download, announce: Message) // `download`, then send a message
    | Fetch(downloads: seq<Download>)              // `fetch`: download all, then send FeedUpdated

  /** The loop's variables: the four lists, the list on display (`dtlist`)
      and which view it shows, the status text, the tasks spawned so far,
      the terminal size and the two repaint flags. */
  datatype State = State(
    feeds: ThingList<Feed>,
    headers: ThingList<Header>,
    downloads: ThingList<Download>,
    logMessages: ThingList<string>,
    dtlist: ThingList<Thing>,
    view: View,
    status: string,
    tasks: seq<Task>,
    width: nat,
    height: nat,
    updateRequired: bool,
    statusUpdateRequired: bool)

  /** Every loaded episode carries its feed reference, so its save path can
      be computed. */
  predicate Inv(s: State)
  {
    forall i :: 0 <= i < |s.feeds.things| ==> Attached(s.feeds.things[i])
  }

  lemma CurrentFeedAttached(s: State)
    requires Inv(s) && s.feeds.HasCurrent()
    ensures Attached(s.feeds.Current())
  {
  }

  /** The state before the first pass: the feeds loaded, every other list
      empty, the feed list on display with its first row selected. */
  function Initial(env: Env, width: nat, height: nat): (s: State)
    ensures Inv(s)
    ensures s.feeds.things == LoadedFeeds(env) && s.feeds.selectedIndex == 0
    ensures s.view == Feeds && s.dtlist == ThingList(GetThings(s.feeds.things, FeedThing), 0)
    ensures |s.headers.things| == |s.downloads.things| == |s.logMessages.things| == |s.tasks| == 0
    ensures s.updateRequired && s.statusUpdateRequired
  {
    var feeds := ThingList(LoadedFeeds(env), 0);
    State(feeds, EmptyList(), EmptyList(), EmptyList(),
          ThingList(GetThings(feeds.things, FeedThing), 0), Feeds, "", [],
          width, height, true, true)
  }

  // ---------------------------------------------------------------------
  // The list on display and the list it shows

  /** The Episodes view reads the episodes of the selected feed, which
      needs a selected feed. */
  predicate ViewListDefined(s: State)
  {
    s.view == Episodes ==> s.feeds.HasCurrent()
  }

  /** The rows of the list the current view shows. */
  function Projection(s: State): seq<Thing>
    requires ViewListDefined(s)
  {
    match s.view
    case Feeds => GetThings(s.feeds.things, FeedThing)
    case Episodes => GetThings(s.feeds.Current().episodes.things, EpisodeThing)
    case Headers => GetThings(s.headers.things, HeaderThing)
    case Downloads => GetThings(s.downloads.things, DownloadThing)
    case Log => GetThings(s.logMessages.things, LogThing)
  }

  /** The cursor of the list the current view shows. */
  function ViewCursor(s: State): nat
    requires ViewListDefined(s)
  {
    match s.view
    case Feeds => s.feeds.selectedIndex
    case Episodes => s.feeds.Current().episodes.selectedIndex
    case Headers => s.headers.selectedIndex
    case Downloads => s.downloads.selectedIndex
    case Log => s.logMessages.selectedIndex
  }

  /** The list on display shows the view's list at the view's cursor. */
  predicate Synced(s: State)
  {
    ViewListDefined(s) && s.dtlist == ThingList(Projection(s), ViewCursor(s))
  }

  /** Two feed lists that differ in cursors only. */
  predicate SameFeedContent(a: ThingList<Feed>, b: ThingList<Feed>)
  {
    |a.things| == |b.things| &&
    forall i :: 0 <= i < |a.things| ==>
      b.things[i] == a.things[i].(episodes := a.things[i].episodes.(selectedIndex := b.things[i].episodes.selectedIndex))
  }

  lemma SameFeedContentKeepsInv(s: State, r: State)
    requires Inv(s) && SameFeedContent(s.feeds, r.feeds)
    ensures Inv(r)
  {
    forall i | 0 <= i < |r.feeds.things|
      ensures Attached(r.feeds.things[i])
    {
      assert r.feeds.things[i].episodes.things == s.feeds.things[i].episodes.things;
    }
  }

  /** `update_selected_index`: copies the displayed cursor back into the
      list the view shows. */
  function WriteBack(s: State): (r: State)
    requires ViewListDefined(s)
    ensures ViewListDefined(r) && ViewCursor(r) == s.dtlist.selectedIndex
    ensures r.dtlist == s.dtlist && r.view == s.view
    ensures r.feeds.selectedIndex == (if s.view == Feeds then s.dtlist.selectedIndex else s.feeds.selectedIndex)
    ensures SameFeedContent(s.feeds, r.feeds)
    ensures s.view != Episodes ==> r.feeds.things == s.feeds.things
    ensures r.headers.things == s.headers.things && r.downloads.things == s.downloads.things
    ensures r.logMessages.things == s.logMessages.things
    ensures r == s.(feeds := r.feeds, headers := r.headers, downloads := r.downloads, logMessages := r.logMessages)
    ensures ViewListDefined(s) && s.view != Episodes ==> Projection(r) == Projection(s)
    ensures !s.view.Headers? ==> r.headers == s.headers
    ensures !s.view.Downloads? ==> r.downloads == s.downloads
    ensures !s.view.Log? ==> r.logMessages == s.logMessages
    ensures s.view == Episodes ==>
      forall j :: 0 <= j < |s.feeds.things| && j != s.feeds.selectedIndex ==> r.feeds.things[j] == s.feeds.things[j]
  {
    var i := s.dtlist.selectedIndex;
    match s.view
    case Feeds => s.(feeds := s.feeds.(selectedIndex := i))
    case Episodes =>
      var f := s.feeds.Current();
      s.(feeds := s.feeds.(things := s.feeds.things[s.feeds.selectedIndex := f.(episodes := f.episodes.(selectedIndex := i))]))
    case Headers => s.(headers := s.headers.(selectedIndex := i))
    case Downloads => s.(downloads := s.downloads.(selectedIndex := i))
    case Log => s.(logMessages := s.logMessages.(selectedIndex := i))
  }

  /** `switch_view`: shows another list, at that list's own cursor. */
  function Switch(s: State, v: View, rows: seq<Thing>, cursor: nat): (r: State)
    ensures r.view == v && r.dtlist.things == rows && r.dtlist.selectedIndex == cursor
    ensures r == s.(view := v, dtlist := ThingList(rows, cursor))
  {
    s.(view := v, dtlist := ThingList(rows, cursor))
  }

  // ---------------------------------------------------------------------
  // Key presses

  /** How a pass of the loop goes on after a key: it ends the loop (Quit),
      skips the rest of the pass (`continue`), or drains and repaints. */
  datatype Flow = Quit | Continue | Proceed

  datatype KeyOutcome = KeyOutcome(state: State, flow: Flow)

  /** A selected episode of the selected feed. */
  predicate EpisodeSelected(s: State)
  {
    s.feeds.HasCurrent() && s.feeds.Current().episodes.HasCurrent()
  }

  /** When the key arm runs without a panic: `shift_index` needs a
      non-empty list and i32 values, End needs a non-empty list
      (`len() - 1`), and every `current()` it reaches needs its cursor in
      range. */
  predicate KeyDefined(s: State, k: Keymap.KeyMap)
  {
    match k
    case Up => s.dtlist.CanShift(-1) && ViewListDefined(s)
    case Down => s.dtlist.CanShift(1) && ViewListDefined(s)
    case Home => ViewListDefined(s)
    case End => |s.dtlist.things| > 0 && ViewListDefined(s)
    case Right | Enter => s.view == Feeds ==> s.feeds.HasCurrent()
    case Episodes => s.feeds.HasCurrent()
    case Headers | Download =>
      (s.view == Feeds ==> s.feeds.HasCurrent()) && (s.view == Episodes ==> EpisodeSelected(s))
    case _ => true
  }

  /** The downloads Refresh starts: one per feed, into the configuration
      folder, each announcing the feed's name when it completes. */
  function RefreshDownloads(feeds: seq<Feed>, configPath: string): (r: seq<Download>)
    ensures |r| == |feeds|
    ensures forall i :: 0 <= i < |feeds| ==>
      r[i].url == feeds[i].url && r[i].downloadedBytes == 0 && r[i].totalBytes == 0 &&
      r[i].path == RssPath(feeds[i], configPath) &&
      r[i].successMessage == Some(FeedDownloaded(feeds[i].name))
  {
    seq(|feeds|, i requires 0 <= i < |feeds| => RefreshDownload(feeds[i], configPath))
  }

  /** The refresh download of one feed. */
  function RefreshDownload(f: Feed, configPath: string): Download
  {
    FeedDownload(f, Some(configPath)).(successMessage := Some(FeedDownloaded(f.name)))
  }

  /** The refresh list of one more feed is the refresh list so far and
      that feed's refresh download. */
  lemma RefreshDownloadsSnoc(feeds: seq<Feed>, configPath: string, i: nat)
    requires i < |feeds|
    ensures RefreshDownloads(feeds[..i + 1], configPath) ==
      RefreshDownloads(feeds[..i], configPath) + [RefreshDownload(feeds[i], configPath)]
  {
    var a, b := RefreshDownloads(feeds[..i + 1], configPath), RefreshDownloads(feeds[..i], configPath);
    assert forall k :: 0 <= k < i ==> a[k] == b[k];
  }

  /** What a key never changes: the feeds' contents (only cursors move),
      the status, the headers and the log, and the download and task lists
      it only appends to. */
  predicate KeyStep(t: State, r: State)
  {
    Inv(r) && SameFeedContent(t.feeds, r.feeds) &&
    r.status == t.status && r.statusUpdateRequired == t.statusUpdateRequired &&
    r.headers.things == t.headers.things && r.logMessages.things == t.logMessages.things &&
    |t.downloads.things| <= |r.downloads.things| && r.downloads.things[..|t.downloads.things|] == t.downloads.things &&
    |t.tasks| <= |r.tasks| && r.tasks[..|t.tasks|] == t.tasks &&
    r.width == t.width && r.height == t.height && r.updateRequired == t.updateRequired
  }

  lemma SameFeedContentReflexive(a: ThingList<Feed>)
    ensures SameFeedContent(a, a)
  {
  }

  /** A state that differs only in the view, the display and the two
      appendable lists is a key step. */
  lemma KeyStepOf(t: State, r: State)
    requires Inv(t) && r.feeds == t.feeds && r.status == t.status
    requires r.statusUpdateRequired == t.statusUpdateRequired
    requires r.headers.things == t.headers.things && r.logMessages.things == t.logMessages.things
    requires |t.downloads.things| <= |r.downloads.things| && r.downloads.things[..|t.downloads.things|] == t.downloads.things
    requires |t.tasks| <= |r.tasks| && r.tasks[..|t.tasks|] == t.tasks
    requires r.width == t.width && r.height == t.height && r.updateRequired == t.updateRequired
    ensures KeyStep(t, r)
  {
    SameFeedContentReflexive(t.feeds);
  }

  /** A cursor key: the displayed cursor moves to sel and is written back;
      nothing is queued. */
  function MoveCursor(t: State, sel: nat): (r: State)
    requires Inv(t) && ViewListDefined(t)
    ensures KeyStep(t, r)
    ensures r == WriteBack(t.(dtlist := t.dtlist.(selectedIndex := sel)))
    ensures r.tasks == t.tasks && r.downloads.things == t.downloads.things
    ensures r.dtlist == t.dtlist.(selectedIndex := sel) && r.view == t.view
    ensures ViewListDefined(r) && ViewCursor(r) == sel && Projection(r) == Projection(t)
  {
    var r := WriteBack(t.(dtlist := t.dtlist.(selectedIndex := sel)));
    SameFeedContentKeepsInv(t, r);
    r
  }

  /** A view key: `switch_view` to the view's list. */
  function ShowView(t: State, v: View, rows: seq<Thing>, cursor: nat): (r: State)
    requires Inv(t)
    ensures KeyStep(t, r) && r == Switch(t, v, rows, cursor)
  {
    var r := Switch(t, v, rows, cursor);
    KeyStepOf(t, r);
    r
  }

  /** Right and Enter: open the selected feed when it has episodes. */
  function OpenFeed(t: State): (r: State)
    requires Inv(t) && (t.view == Feeds ==> t.feeds.HasCurrent())
    ensures KeyStep(t, r)
    ensures r.feeds == t.feeds && r.headers == t.headers && r.downloads == t.downloads
    ensures r.logMessages == t.logMessages && r.tasks == t.tasks
  {
    if t.view == Feeds && |t.feeds.Current().episodes.things| > 0 then
      var f := t.feeds.Current();
      ShowView(t, View.Episodes, GetThings(f.episodes.things, EpisodeThing), f.episodes.selectedIndex)
    else
      KeyStepOf(t, t);
      t
  }

  /** Refresh: a download per feed, all handed to one fetch. */
  function RefreshAll(t: State, configPath: string): (r: State)
    requires Inv(t)
    ensures KeyStep(t, r)
  {
    var dls := RefreshDownloads(t.feeds.things, configPath);
    var r := t.(downloads := t.downloads.(things := t.downloads.things + dls), tasks := t.tasks + [Fetch(dls)]);
    KeyStepOf(t, r);
    r
  }

  /** Headers: probe the selected feed or episode, then show the headers. */
  function ProbeHeaders(t: State): (r: State)
    requires Inv(t) && (t.view == Feeds ==> t.feeds.HasCurrent()) && (t.view == Episodes ==> EpisodeSelected(t))
    ensures KeyStep(t, r)
    ensures r.feeds == t.feeds && r.headers == t.headers && r.downloads == t.downloads
    ensures r.logMessages == t.logMessages && |r.tasks| <= |t.tasks| + 1
  {
    var probed :=
      (match t.view
       case Feeds => t.(tasks := t.tasks + [Probe(t.feeds.Current().url)])
       case Episodes => t.(tasks := t.tasks + [Probe(t.feeds.Current().episodes.Current().enclosureUrl)])
       case _ => t);
    var r := Switch(probed, View.Headers, GetThings(t.headers.things, HeaderThing), t.headers.selectedIndex);
    KeyStepOf(t, r);
    r
  }

  /** Download: queue the selected episode or feed, or leave the pass. */
  function DownloadSelected(t: State, configPath: string): (r: KeyOutcome)
    requires Inv(t) && (t.view == Feeds ==> t.feeds.HasCurrent()) && (t.view == Episodes ==> EpisodeSelected(t))
    ensures KeyStep(t, r.state)
    ensures r.flow == Continue <==> t.view != Feeds && t.view != Episodes
    ensures r.flow != Quit
  {
    if t.view == Episodes then
      CurrentFeedAttached(t);
      var e := t.feeds.Current().episodes.Current();
      var dl := EpisodeDownload(e, None);
      var r := t.(downloads := t.downloads.(things := t.downloads.things + [dl]),
                  tasks := t.tasks + [DownloadThen(dl, EpisodeDownloaded(e.name))]);
      KeyStepOf(t, r);
      KeyOutcome(r, Proceed)
    else if t.view == Feeds then
      var f := t.feeds.Current();
      var dl := FeedDownload(f, Some(configPath));
      var r := t.(downloads := t.downloads.(things := t.downloads.things + [dl]),
                  tasks := t.tasks + [DownloadThen(dl, FeedDownloaded(f.name))]);
      KeyStepOf(t, r);
      KeyOutcome(r, Proceed)
    else
      KeyStepOf(t, t);
      KeyOutcome(t, Continue)
  }

  predicate IsCursorKey(k: Keymap.KeyMap)
  {
    k.Up? || k.Down? || k.Home? || k.End?
  }

  predicate IsViewKey(k: Keymap.KeyMap)
  {
    k.Left? || k.Feeds? || k.Downloads? || k.Right? || k.Enter? || k.Episodes? || k.Log? || k.Headers?
  }

  /** Up, Down, Home and End. */
  function CursorKey(t: State, k: Keymap.KeyMap): (r: State)
    requires Inv(t) && KeyDefined(t, k) && IsCursorKey(k)
    ensures KeyStep(t, r)
    ensures r.tasks == t.tasks && r.downloads.things == t.downloads.things
  {
    match k
    case Up => MoveCursor(t, t.dtlist.ShiftIndex(-1).selectedIndex)
    case Down => MoveCursor(t, t.dtlist.ShiftIndex(1).selectedIndex)
    case Home => MoveCursor(t, 0)
    case End => MoveCursor(t, |t.dtlist.things| - 1)
  }

  /** The keys that change the view. */
  function ViewKey(t: State, k: Keymap.KeyMap): (r: State)
    requires Inv(t) && KeyDefined(t, k) && IsViewKey(k)
    ensures KeyStep(t, r)
    ensures r.feeds == t.feeds && r.headers == t.headers && r.downloads == t.downloads
    ensures r.logMessages == t.logMessages
    ensures !k.Headers? ==> r.tasks == t.tasks
  {
    match k
    case Left | Feeds => ShowView(t, View.Feeds, GetThings(t.feeds.things, FeedThing), t.feeds.selectedIndex)
    case Downloads => ShowView(t, View.Downloads, GetThings(t.downloads.things, DownloadThing), t.downloads.selectedIndex)
    case Right | Enter => OpenFeed(t)
    case Episodes =>
      var f := t.feeds.Current();
      ShowView(t, View.Episodes, GetThings(f.episodes.things, EpisodeThing), f.episodes.selectedIndex)
    case Log => ShowView(t, View.Log, GetThings(t.logMessages.things, LogThing), t.logMessages.selectedIndex)
    case Headers => ProbeHeaders(t)
  }

  /** The key arm of the loop. The terminal size is read first and a repaint
      is requested; then the key acts. */
  function OnKey(s: State, k: Keymap.KeyMap, configPath: string, width: nat, height: nat): (r: KeyOutcome)
    requires Inv(s) && KeyDefined(s, k)
    ensures Inv(r.state)
    ensures r.flow == Quit <==> k == Keymap.Quit
    ensures r.flow == Continue <==> k == Keymap.Download && s.view != Feeds && s.view != Episodes
    ensures r.state.updateRequired <==> k != Keymap.PageUp && k != Keymap.PageDown
    ensures (r.state.width, r.state.height) == if k.Resize? then (k.width, k.height) else (width, height)
    ensures SameFeedContent(s.feeds, r.state.feeds)
    ensures r.state.status == s.status && r.state.statusUpdateRequired == s.statusUpdateRequired
    ensures r.state.headers.things == s.headers.things && r.state.logMessages.things == s.logMessages.things
    ensures |s.downloads.things| <= |r.state.downloads.things| && r.state.downloads.things[..|s.downloads.things|] == s.downloads.things
    ensures |s.tasks| <= |r.state.tasks| && r.state.tasks[..|s.tasks|] == s.tasks
  {
    var t := s.(width := width, height := height, updateRequired := true);
    if IsCursorKey(k) then KeyOutcome(CursorKey(t, k), Proceed)
    else if IsViewKey(k) then KeyOutcome(ViewKey(t, k), Proceed)
    else if k.Refresh? then KeyOutcome(RefreshAll(t, configPath), Proceed)
    else if k.Download? then DownloadSelected(t, configPath)
    else
      var u :=
        (match k
         case Resize(w, h) => t.(width := w, height := h)
         case PageUp | PageDown => t.(updateRequired := false)
         case _ => t);
      KeyStepOf(u, u);
      KeyOutcome(u, if k.Quit? then Quit else Proceed)
  }

  /** A cursor key acts on the state with the new size and the repaint
      requested. */
  lemma OnCursorKey(s: State, k: Keymap.KeyMap, configPath: string, width: nat, height: nat)
    requires Inv(s) && KeyDefined(s, k) && IsCursorKey(k)
    ensures OnKey(s, k, configPath, width, height).state ==
      CursorKey(s.(width := width, height := height, updateRequired := true), k)
  {
  }

  /** A view key acts on the state with the new size and the repaint
      requested. */
  lemma OnViewKey(s: State, k: Keymap.KeyMap, configPath: string, width: nat, height: nat)
    requires Inv(s) && KeyDefined(s, k) && IsViewKey(k)
    ensures OnKey(s, k, configPath, width, height).state ==
      ViewKey(s.(width := width, height := height, updateRequired := true), k)
  {
  }

  /** Up and Down move the displayed cursor one row cyclically and copy it
      back into the view's list; the rows shown do not change, so a display
      in sync with its list stays in sync. */
  lemma StepKeysMoveCursorCyclically(s: State, k: Keymap.KeyMap, configPath: string, width: nat, height: nat)
    requires Inv(s) && KeyDefined(s, k) && (k == Keymap.Up || k == Keymap.Down)
    ensures var r := OnKey(s, k, configPath, width, height).state;
      var offset := if k == Keymap.Up then -1 else 1;
      r.dtlist.things == s.dtlist.things && r.view == s.view &&
      r.dtlist.selectedIndex < |s.dtlist.things| &&
      (s.dtlist.selectedIndex + offset - r.dtlist.selectedIndex) % |s.dtlist.things| == 0 &&
      ViewListDefined(r) && ViewCursor(r) == r.dtlist.selectedIndex &&
      (Synced(s) ==> Synced(r))
  {
    var t := s.(width := width, height := height, updateRequired := true);
    OnCursorKey(s, k, configPath, width, height);
    StepKeyMoves(t, k);
    if Synced(s) {
      MoveKeepsSync(s, t, t.dtlist.ShiftIndex(if k == Keymap.Up then -1 else 1).selectedIndex);
    }
  }

  /** Up and Down are the cursor move by -1 and +1. */
  lemma StepKeyMoves(t: State, k: Keymap.KeyMap)
    requires Inv(t) && KeyDefined(t, k) && (k == Keymap.Up || k == Keymap.Down)
    ensures var offset := if k == Keymap.Up then -1 else 1;
      t.dtlist.CanShift(offset) && ViewListDefined(t) &&
      CursorKey(t, k) == MoveCursor(t, t.dtlist.ShiftIndex(offset).selectedIndex)
    ensures var offset := if k == Keymap.Up then -1 else 1;
      var r := CursorKey(t, k);
      r.dtlist.things == t.dtlist.things && r.view == t.view &&
      r.dtlist.selectedIndex < |t.dtlist.things| &&
      (t.dtlist.selectedIndex + offset - r.dtlist.selectedIndex) % |t.dtlist.things| == 0 &&
      ViewListDefined(r) && ViewCursor(r) == r.dtlist.selectedIndex
  {
    ShiftMovesCursor(t, if k == Keymap.Up then -1 else 1);
  }

  /** Shifting the displayed cursor keeps the rows and the view, and the
      new cursor is in range, congruent to the shifted one and written back. */
  lemma ShiftMovesCursor(t: State, offset: int)
    requires Inv(t) && ViewListDefined(t) && t.dtlist.CanShift(offset)
    ensures var r := MoveCursor(t, t.dtlist.ShiftIndex(offset).selectedIndex);
      r.dtlist.things == t.dtlist.things && r.view == t.view &&
      r.dtlist.selectedIndex < |t.dtlist.things| &&
      (t.dtlist.selectedIndex + offset - r.dtlist.selectedIndex) % |t.dtlist.things| == 0 &&
      ViewListDefined(r) && ViewCursor(r) == r.dtlist.selectedIndex
  {
  }

  /** Moving the cursor of a synced display, after the size and repaint
      flag were set, leaves it synced. */
  lemma MoveKeepsSync(s: State, t: State, sel: nat)
    requires Inv(s) && Synced(s) && t == s.(width := t.width, height := t.height, updateRequired := t.updateRequired)
    ensures Inv(t) && Synced(MoveCursor(t, sel))
  {
    assert Projection(t) == Projection(s) && ViewCursor(t) == ViewCursor(s);
  }

  /** Home selects the first row and End the last, in the display and in
      the view's list. */
  lemma HomeAndEndSelectEnds(s: State, configPath: string, width: nat, height: nat)
    requires Inv(s) && ViewListDefined(s)
    ensures var r := OnKey(s, Keymap.Home, configPath, width, height).state;
      r.dtlist.selectedIndex == 0 && ViewCursor(r) == 0 && r.dtlist.things == s.dtlist.things
    ensures |s.dtlist.things| > 0 ==>
      var r := OnKey(s, Keymap.End, configPath, width, height).state;
      r.dtlist.selectedIndex == |s.dtlist.things| - 1 && ViewCursor(r) == |s.dtlist.things| - 1 &&
      r.dtlist.things == s.dtlist.things
  {
    HomeSelectsFirst(s, configPath, width, height);
    if |s.dtlist.things| > 0 {
      EndSelectsLast(s, configPath, width, height);
    }
  }

  /** Home selects the first row. */
  lemma HomeSelectsFirst(s: State, configPath: string, width: nat, height: nat)
    requires Inv(s) && ViewListDefined(s)
    ensures var r := OnKey(s, Keymap.Home, configPath, width, height).state;
      r.dtlist.selectedIndex == 0 && ViewCursor(r) == 0 && r.dtlist.things == s.dtlist.things
  {
    OnCursorKey(s, Keymap.Home, configPath, width, height);
  }

  /** End selects the last row of a non-empty list. */
  lemma EndSelectsLast(s: State, configPath: string, width: nat, height: nat)
    requires Inv(s) && ViewListDefined(s) && |s.dtlist.things| > 0
    ensures var r := OnKey(s, Keymap.End, configPath, width, height).state;
      r.dtlist.selectedIndex == |s.dtlist.things| - 1 && ViewCursor(r) == |s.dtlist.things| - 1 &&
      r.dtlist.things == s.dtlist.things
  {
    OnCursorKey(s, Keymap.End, configPath, width, height);
  }

  /** PageUp and PageDown are not bound to anything: they only record the
      terminal size and cancel the repaint the key would have caused. */
  lemma PageKeysChangeNothing(s: State, k: Keymap.KeyMap, configPath: string, width: nat, height: nat)
    requires Inv(s) && (k == Keymap.PageUp || k == Keymap.PageDown)
    ensures OnKey(s, k, configPath, width, height) ==
      KeyOutcome(s.(width := width, height := height, updateRequired := false), Proceed)
  {
  }

  /** The view keys show the chosen list at its own cursor, so that the
      display and the list are in sync afterwards. */
  lemma ViewKeysSync(s: State, k: Keymap.KeyMap, configPath: string, width: nat, height: nat)
    requires Inv(s) && KeyDefined(s, k)
    requires k == Keymap.Feeds || k == Keymap.Left || k == Keymap.Downloads || k == Keymap.Log ||
             k == Keymap.Episodes || k == Keymap.Headers
    ensures var r := OnKey(s, k, configPath, width, height).state;
      Synced(r) &&
      r.view == (match k
                 case Feeds | Left => View.Feeds
                 case Downloads => View.Downloads
                 case Log => View.Log
                 case Episodes => View.Episodes
                 case _ => View.Headers)
  {
    OnViewKey(s, k, configPath, width, height);
  }

  /** The key that shows a view. */
  function ViewKeyFor(v: View): (k: Keymap.KeyMap)
    ensures IsViewKey(k)
  {
    match v
    case Feeds => Keymap.Feeds
    case Episodes => Keymap.Episodes
    case Headers => Keymap.Headers
    case Downloads => Keymap.Downloads
    case Log => Keymap.Log
  }

  /** Pressing a view's own key, in a state holding the same lists as a
      state that showed that view in sync, shows the same rows and cursor. */
  lemma ShowingViewAgain(s: State, u: State)
    requires Inv(u) && Synced(s) && KeyDefined(u, ViewKeyFor(s.view))
    requires u.feeds == s.feeds && u.headers == s.headers && u.downloads == s.downloads
    requires u.logMessages == s.logMessages
    ensures var r := ViewKey(u, ViewKeyFor(s.view));
      r.view == s.view && r.dtlist == s.dtlist
  {
    match s.view
    case Headers =>
      var r := ProbeHeaders(u);
      assert r.dtlist == ThingList(GetThings(u.headers.things, HeaderThing), u.headers.selectedIndex);
    case _ =>
  }

  /** Leaving a view by any view key and coming back by that view's key
      shows the same rows at the same cursor: view keys change no list, and
      the cursor moved in the view was written back into its list. */
  lemma ReturningToViewRestoresCursor(s: State, away: Keymap.KeyMap, configPath: string, width: nat, height: nat)
    requires Inv(s) && Synced(s) && IsViewKey(away) && KeyDefined(s, away)
    requires KeyDefined(OnKey(s, away, configPath, width, height).state, ViewKeyFor(s.view))
    ensures var a := OnKey(s, away, configPath, width, height).state;
      var r := OnKey(a, ViewKeyFor(s.view), configPath, width, height).state;
      r.view == s.view && r.dtlist == s.dtlist
  {
    var a := OnKey(s, away, configPath, width, height).state;
    var back := ViewKeyFor(s.view);
    OnViewKey(s, away, configPath, width, height);
    var u := a.(width := width, height := height, updateRequired := true);
    OnViewKey(a, back, configPath, width, height);
    ShowingViewAgain(s, u);
  }

  /** Right and Enter open the selected feed's episodes only from the feed
      list and only when the feed has episodes; otherwise they change
      nothing but the size and the repaint flag. */
  lemma EnterOpensNonEmptyFeed(s: State, k: Keymap.KeyMap, configPath: string, width: nat, height: nat)
    requires Inv(s) && KeyDefined(s, k) && (k == Keymap.Enter || k == Keymap.Right)
    ensures var r := OnKey(s, k, configPath, width, height).state;
      if s.view == Feeds && |s.feeds.Current().episodes.things| > 0 then
        r.view == Episodes && Synced(r) && r.feeds == s.feeds &&
        r.downloads == s.downloads && r.tasks == s.tasks
      else
        r == s.(width := width, height := height, updateRequired := true)
  {
  }

  /** The Headers key probes the selected feed's or episode's URL, from the
      two lists that have one, and shows the headers list. */
  lemma HeadersKeyProbes(s: State, configPath: string, width: nat, height: nat)
    requires Inv(s) && KeyDefined(s, Keymap.Headers)
    ensures var r := OnKey(s, Keymap.Headers, configPath, width, height).state;
      r.view == View.Headers && r.feeds == s.feeds && r.downloads == s.downloads &&
      r.tasks == s.tasks + match s.view
        case Feeds => [Probe(s.feeds.Current().url)]
        case Episodes => [Probe(s.feeds.Current().episodes.Current().enclosureUrl)]
        case _ => []
  {
  }

  /** Refresh queues one feed download per feed, in feed order, and hands
      exactly those to a single fetch task. The display is not refreshed. */
  lemma RefreshQueuesEveryFeed(s: State, configPath: string, width: nat, height: nat)
    requires Inv(s)
    ensures var r := OnKey(s, Keymap.Refresh, configPath, width, height).state;
      var added := r.downloads.things[|s.downloads.things|..];
      |added| == |s.feeds.things| &&
      (forall i :: 0 <= i < |added| ==>
        added[i].url == s.feeds.things[i].url && added[i].path == RssPath(s.feeds.things[i], configPath) &&
        added[i].successMessage == Some(FeedDownloaded(s.feeds.things[i].name))) &&
      r.tasks == s.tasks + [Fetch(added)] &&
      r.feeds == s.feeds && r.dtlist == s.dtlist && r.view == s.view
  {
  }

  /** The Download key queues one download of the selected item, and a task
      that announces it when done; outside the two lists that have items to
      download it ends the pass early without queuing anything. */
  lemma DownloadKeyQueuesSelected(s: State, configPath: string, width: nat, height: nat)
    requires Inv(s) && KeyDefined(s, Keymap.Download)
    ensures var r := OnKey(s, Keymap.Download, configPath, width, height);
      match s.view
      case Feeds =>
        var f := s.feeds.Current();
        r.flow == Proceed &&
        r.state.downloads.things == s.downloads.things + [FeedDownload(f, Some(configPath))] &&
        r.state.tasks == s.tasks + [DownloadThen(FeedDownload(f, Some(configPath)), FeedDownloaded(f.name))] &&
        r.state.downloads.things[|s.downloads.things|].path == RssPath(f, configPath)
      case Episodes =>
        var e := s.feeds.Current().episodes.Current();
        e.feed.Some? && r.flow == Proceed &&
        r.state.downloads.things == s.downloads.things + [EpisodeDownload(e, None)] &&
        r.state.tasks == s.tasks + [DownloadThen(EpisodeDownload(e, None), EpisodeDownloaded(e.name))] &&
        PathFileName(r.state.downloads.things[|s.downloads.things|].path) == EpisodeFilename(e)
      case _ =>
        r.flow == Continue && r.state == s.(width := width, height := height, updateRequired := true)
  {
    if s.view == Episodes {
      CurrentFeedAttached(s);
    }
  }

  // ---------------------------------------------------------------------
  // Messages

  /** The index of the first element satisfying p, as `iter().find` finds it. */
  function FindFirst<T>(xs: seq<T>, p: T -> bool): (r: Option<nat>)
    ensures r.Some? ==> r.value < |xs| && p(xs[r.value]) && forall j :: 0 <= j < r.value ==> !p(xs[j])
    ensures r.None? ==> forall j :: 0 <= j < |xs| ==> !p(xs[j])
  {
    if xs == [] then None
    else if p(xs[0]) then Some(0)
    else match FindFirst(xs[1..], p)
      case None => None
      case Some(i) => Some(i + 1)
  }

  /** The tests `find` applies: a feed by name, a download by URL. */
  function FeedNamed(name: string): Feed -> bool
  {
    (f: Feed) => f.name == name
  }

  function DownloadOf(url: string): Download -> bool
  {
    (d: Download) => d.url == url
  }

  /** EpisodeDownloaded rechecks the selected feed, which needs one. */
  predicate MessageDefined(s: State, m: Message)
  {
    m.EpisodeDownloaded? ==> s.feeds.HasCurrent()
  }

  /** The message arm of the loop, for one message; every message asks for
      the status row to be repainted. */
  function OnMessage(s: State, m: Message, env: Env): (r: State)
    requires Inv(s) && MessageDefined(s, m)
    ensures Inv(r) && r.statusUpdateRequired
    ensures r.width == s.width && r.height == s.height && r.tasks == s.tasks
    ensures !(m.FeedDownloaded? || m.EpisodeDownloaded?) ==> r.updateRequired == s.updateRequired
  {
    var t :=
      match m
      case Notification(text) => s.(status := text)
      case FeedUpdated =>
        s.(status := "Feed updated", feeds := s.feeds.(things := LoadedFeeds(env)))
      case FeedDownloaded(name) =>
        var feeds :=
          (match FindFirst(s.feeds.things, FeedNamed(name))
           case None => s.feeds
           case Some(i) => s.feeds.(things := s.feeds.things[i := Reloaded(s.feeds.things[i], env)]));
        s.(status := "Downloaded: " + name, feeds := feeds,
           dtlist := if s.view == Feeds then s.dtlist.(things := GetThings(feeds.things, FeedThing)) else s.dtlist,
           updateRequired := true)
      case EpisodeDownloaded(name) =>
        (CurrentFeedAttached(s);
         var g := Recheck(s.feeds.Current(), env.exists_);
         s.(status := "Downloaded: " + name,
            feeds := s.feeds.(things := s.feeds.things[s.feeds.selectedIndex := g]),
            dtlist := if s.view == Episodes then s.dtlist.(things := GetThings(g.episodes.things, EpisodeThing)) else s.dtlist,
            updateRequired := true))
      case Headers(list) => s.(view := View.Headers, headers := s.headers.(things := list))
      case DownloadProgress(url, bytes) =>
        (match FindFirst(s.downloads.things, DownloadOf(url))
         case None => s
         case Some(i) =>
           s.(downloads := s.downloads.(things := s.downloads.things[i := s.downloads.things[i].(downloadedBytes := bytes)])))
      case DownloadSize(url, bytes) =>
        (match FindFirst(s.downloads.things, DownloadOf(url))
         case None => s
         case Some(i) =>
           s.(downloads := s.downloads.(things := s.downloads.things[i := s.downloads.things[i].(totalBytes := bytes)])))
      case LogMessage(text) => s.(logMessages := s.logMessages.(things := s.logMessages.things + [text]));
    t.(statusUpdateRequired := true)
  }

  /** A progress report updates the first download with that URL and no
      other, and changes nothing else but the status repaint flag; a report
      for an unknown URL changes only that flag. */
  lemma ProgressUpdatesFirstMatch(s: State, url: string, bytes: U64, env: Env)
    requires Inv(s)
    ensures var r := OnMessage(s, DownloadProgress(url, bytes), env);
      r == s.(downloads := r.downloads, statusUpdateRequired := true) &&
      |r.downloads.things| == |s.downloads.things| && r.downloads.selectedIndex == s.downloads.selectedIndex &&
      if exists i :: 0 <= i < |s.downloads.things| && s.downloads.things[i].url == url then
        exists i :: 0 <= i < |s.downloads.things| && s.downloads.things[i].url == url &&
          (forall j :: 0 <= j < i ==> s.downloads.things[j].url != url) &&
          r.downloads.things == s.downloads.things[i := s.downloads.things[i].(downloadedBytes := bytes)]
      else
        r == s.(statusUpdateRequired := true)
  {
    var found := FindFirst(s.downloads.things, DownloadOf(url));
    if found.Some? {
      var i := found.value;
      assert s.downloads.things[i].url == url;
    }
  }

  /** A size report sets the total of the first download with that URL and
      no other, and changes nothing else but the status repaint flag; a
      report for an unknown URL changes only that flag. */
  lemma SizeUpdatesFirstMatch(s: State, url: string, bytes: U64, env: Env)
    requires Inv(s)
    ensures var r := OnMessage(s, DownloadSize(url, bytes), env);
      r == s.(downloads := r.downloads, statusUpdateRequired := true) &&
      |r.downloads.things| == |s.downloads.things| && r.downloads.selectedIndex == s.downloads.selectedIndex &&
      if exists i :: 0 <= i < |s.downloads.things| && s.downloads.things[i].url == url then
        exists i :: 0 <= i < |s.downloads.things| && s.downloads.things[i].url == url &&
          (forall j :: 0 <= j < i ==> s.downloads.things[j].url != url) &&
          r.downloads.things == s.downloads.things[i := s.downloads.things[i].(totalBytes := bytes)]
      else
        r == s.(statusUpdateRequired := true)
  {
    var found := FindFirst(s.downloads.things, DownloadOf(url));
    if found.Some? {
      var i := found.value;
      assert s.downloads.things[i].url == url;
    }
  }

  /** A notification replaces the status text and changes nothing else but
      the status repaint flag. */
  lemma NotificationSetsStatus(s: State, text: string, env: Env)
    requires Inv(s)
    ensures OnMessage(s, Notification(text), env) == s.(status := text, statusUpdateRequired := true)
  {
  }

  /** A log line is appended to the log list, which keeps its cursor; the
      display is not refreshed, even in the Log view, and nothing else but
      the status repaint flag changes. */
  lemma LogMessageAppends(s: State, text: string, env: Env)
    requires Inv(s)
    ensures OnMessage(s, LogMessage(text), env) ==
      s.(logMessages := s.logMessages.(things := s.logMessages.things + [text]), statusUpdateRequired := true)
  {
  }

  /** A finished feed download reloads the first feed of that name and no
      other feed, and reports the name in the status. */
  lemma FeedDownloadedReloadsThatFeed(s: State, name: string, env: Env)
    requires Inv(s)
    ensures var r := OnMessage(s, FeedDownloaded(name), env);
      r.status == "Downloaded: " + name && r.updateRequired &&
      |r.feeds.things| == |s.feeds.things| && r.feeds.selectedIndex == s.feeds.selectedIndex &&
      (forall i :: 0 <= i < |s.feeds.things| ==>
        r.feeds.things[i] == (if s.feeds.things[i].name == name && (forall j :: 0 <= j < i ==> s.feeds.things[j].name != name)
                              then Reloaded(s.feeds.things[i], env) else s.feeds.things[i])) &&
      (s.view == Feeds ==> r.dtlist == s.dtlist.(things := GetThings(r.feeds.things, FeedThing)))
  {
    var found := FindFirst(s.feeds.things, FeedNamed(name));
    if found.Some? {
      var k := found.value;
      forall i | 0 <= i < |s.feeds.things| && s.feeds.things[i].name == name
        ensures (forall j :: 0 <= j < i ==> s.feeds.things[j].name != name) <==> i == k
      {
        assert s.feeds.things[k].name == name;
      }
    }
  }

  /** FeedUpdated reloads the whole feed list from the configuration and
      keeps the cursor, without refreshing the display; besides the status
      text and its repaint flag nothing else changes. */
  lemma FeedUpdatedReloadsAll(s: State, env: Env)
    requires Inv(s)
    ensures OnMessage(s, FeedUpdated, env) ==
      s.(status := "Feed updated", feeds := ThingList(LoadedFeeds(env), s.feeds.selectedIndex),
         statusUpdateRequired := true)
  {
  }

  /** A finished episode download rechecks the selected feed's files and
      refreshes the episode rows when they are on display. */
  lemma EpisodeDownloadedRechecks(s: State, name: string, env: Env)
    requires Inv(s) && s.feeds.HasCurrent()
    ensures var r := OnMessage(s, EpisodeDownloaded(name), env);
      var g := r.feeds.Current();
      r.feeds.HasCurrent() && r.status == "Downloaded: " + name && r.updateRequired &&
      Attached(s.feeds.Current()) && g == Recheck(s.feeds.Current(), env.exists_) &&
      (forall i :: 0 <= i < |g.episodes.things| ==>
        (EpisodeStyle(g.episodes.things[i]) == Bold <==> env.exists_(EpisodeSavePath(s.feeds.Current().episodes.things[i])))) &&
      (s.view == Episodes ==> r.dtlist.things == GetThings(g.episodes.things, EpisodeThing))
  {
    CurrentFeedAttached(s);
    StylesAfterRecheck(s.feeds.Current(), env.exists_);
  }

  /** The FeedDownloaded transition on its own: the status names the feed,
      the first feed of that name is reloaded, and the feed rows are
      refreshed when they are on display. */
  lemma OnFeedDownloaded(s: State, name: string, env: Env)
    requires Inv(s)
    ensures var feeds :=
        (match FindFirst(s.feeds.things, FeedNamed(name))
         case None => s.feeds
         case Some(i) => s.feeds.(things := s.feeds.things[i := Reloaded(s.feeds.things[i], env)]));
      OnMessage(s, FeedDownloaded(name), env) ==
        s.(status := "Downloaded: " + name, feeds := feeds,
           dtlist := if s.view == Feeds then s.dtlist.(things := GetThings(feeds.things, FeedThing)) else s.dtlist,
           updateRequired := true, statusUpdateRequired := true)
  {
  }

  /** The EpisodeDownloaded transition on its own: the status names the
      episode, the selected feed is rechecked, and the episode rows are
      refreshed when they are on display. */
  lemma OnEpisodeDownloaded(s: State, name: string, env: Env)
    requires Inv(s) && s.feeds.HasCurrent()
    ensures Attached(s.feeds.Current())
    ensures var g := Recheck(s.feeds.Current(), env.exists_);
      OnMessage(s, EpisodeDownloaded(name), env) ==
        s.(status := "Downloaded: " + name,
           feeds := s.feeds.(things := s.feeds.things[s.feeds.selectedIndex := g]),
           dtlist := if s.view == Episodes then s.dtlist.(things := GetThings(g.episodes.things, EpisodeThing)) else s.dtlist,
           updateRequired := true, statusUpdateRequired := true)
  {
    CurrentFeedAttached(s);
  }

  /** A Headers message switches to the headers view and replaces the
      headers, keeping their cursor, but leaves the display showing what it
      showed; nothing else but the status repaint flag changes. */
  lemma HeadersMessageSwitchesView(s: State, list: seq<Header>, env: Env)
    requires Inv(s)
    ensures OnMessage(s, Message.Headers(list), env) ==
      s.(view := View.Headers, headers := s.headers.(things := list), statusUpdateRequired := true)
  {
  }

  /** The messages can be drained one after another without a panic. */
  predicate DrainDefined(s: State, msgs: seq<Message>, env: Env)
    requires Inv(s)
    decreases |msgs|
  {
    msgs == [] || (MessageDefined(s, msgs[0]) && DrainDefined(OnMessage(s, msgs[0], env), msgs[1..], env))
  }

  /** The state after handling the queued messages in order. */
  function DrainAll(s: State, msgs: seq<Message>, env: Env): (r: State)
    requires Inv(s) && DrainDefined(s, msgs, env)
    ensures Inv(r)
    ensures msgs != [] ==> r.statusUpdateRequired
    ensures msgs == [] ==> r == s
    decreases |msgs|
  {
    if msgs == [] then s else DrainAll(OnMessage(s, msgs[0], env), msgs[1..], env)
  }

  /** Draining two batches one after the other is draining them together. */
  lemma {:induction false} DrainConcat(s: State, a: seq<Message>, b: seq<Message>, env: Env)
    requires Inv(s) && DrainDefined(s, a + b, env)
    ensures DrainDefined(s, a, env) && DrainDefined(DrainAll(s, a, env), b, env)
    ensures DrainAll(s, a + b, env) == DrainAll(DrainAll(s, a, env), b, env)
    decreases |a|
  {
    if a == [] {
      assert a + b == b;
    } else {
      assert (a + b)[0] == a[0] && (a + b)[1..] == a[1..] + b;
      DrainConcat(OnMessage(s, a[0], env), a[1..], b, env);
    }
  }

  // ---------------------------------------------------------------------
  // Status and one pass of the loop

  /** The status closure reads the selected feed, or the selected episode
      of the selected feed, in those two views. */
  predicate StatusDefined(s: State)
  {
    (s.view == Feeds ==> s.feeds.HasCurrent()) && (s.view == Episodes ==> EpisodeSelected(s))
  }

  /** `update_status`: the status shows the URL of the selected feed or
      episode; other views keep the status as it is. */
  function UpdateStatus(s: State): (r: State)
    requires StatusDefined(s)
    ensures r == s.(status := r.status)
    ensures s.view == Feeds ==> r.status == s.feeds.Current().url
    ensures s.view == Episodes ==> r.status == s.feeds.Current().episodes.Current().enclosureUrl
    ensures s.view != Feeds && s.view != Episodes ==> r == s
  {
    match s.view
    case Feeds => s.(status := s.feeds.Current().url)
    case Episodes => s.(status := s.feeds.Current().episodes.Current().enclosureUrl)
    case _ => s
  }

  /** What a pass paints: the list handed to `update` (when a repaint was
      required) and the status row (when either flag was set). */
  datatype Frame = Frame(list: Option<ThingList<Thing>>, statusLine: Option<string>)

  datatype Pass = Pass(state: State, flow: Flow, frame: Frame)

  /** The state a pass reaches after its key. */
  function AfterKey(s: State, key: Option<Keymap.KeyMap>, configPath: string, width: nat, height: nat): (r: KeyOutcome)
    requires Inv(s) && (key.Some? ==> KeyDefined(s, key.value))
    ensures Inv(r.state)
    ensures key.None? ==> r == KeyOutcome(s, Proceed)
  {
    if key.Some? then OnKey(s, key.value, configPath, width, height) else KeyOutcome(s, Proceed)
  }

  /** The list repaint runs without a panic: `update` slices the display
      list, which needs the crossterm window to exist. */
  predicate RepaintDefined(d: State)
  {
    VisibleWindow(d.dtlist.selectedIndex, |d.dtlist.things|, d.height).Some?
  }

  /** A pass runs without a panic: the key, the messages, and, when a
      repaint is required, the status closure and the list painter. */
  predicate PassDefined(s: State, key: Option<Keymap.KeyMap>, width: nat, height: nat, msgs: seq<Message>, env: Env)
  {
    Inv(s) && (key.Some? ==> KeyDefined(s, key.value)) &&
    var k := AfterKey(s, key, env.configPath, width, height);
    (k.flow == Proceed ==>
      DrainDefined(k.state, msgs, env) &&
      var d := DrainAll(k.state, msgs, env);
      (d.updateRequired ==> StatusDefined(d) && RepaintDefined(d)))
  }

  /** One pass of the loop: the key (when one was read, with the terminal
      size read alongside it), then every queued message, then the repaint
      the flags ask for, after which both flags are cleared. Quit and
      `continue` leave before the messages. */
  function OnePass(s: State, key: Option<Keymap.KeyMap>, width: nat, height: nat, msgs: seq<Message>, env: Env): (r: Pass)
    requires PassDefined(s, key, width, height, msgs, env)
    ensures Inv(r.state)
    ensures r.flow == Quit <==> key == Some(Keymap.Quit)
    ensures r.flow == Proceed ==> !r.state.updateRequired && !r.state.statusUpdateRequired
    ensures r.flow == Proceed && r.frame.list.Some? ==> r.frame.statusLine.Some?
    ensures r.flow == Proceed && msgs != [] ==> r.frame.statusLine.Some?
    ensures r.flow != Proceed ==> r.frame == Frame(None, None)
    ensures var k := AfterKey(s, key, env.configPath, width, height);
      r.flow == k.flow && (r.flow != Proceed ==> r.state == k.state)
    ensures var k := AfterKey(s, key, env.configPath, width, height);
      k.flow == Proceed ==>
        var d := DrainAll(k.state, msgs, env);
        (r.frame.list.Some? <==> d.updateRequired) &&
        (r.frame.statusLine.Some? <==> d.updateRequired || d.statusUpdateRequired) &&
        (r.frame.list.Some? ==> r.frame.list.value == d.dtlist) &&
        r.state == (if d.updateRequired then UpdateStatus(d) else d).(updateRequired := false, statusUpdateRequired := false) &&
        (r.frame.statusLine.Some? ==> r.frame.statusLine.value == StatusLine(r.state.status, r.state.width))
    ensures r.frame.list.Some? ==>
      VisibleWindow(r.frame.list.value.selectedIndex, |r.frame.list.value.things|, r.state.height).Some?
  {
    var k := AfterKey(s, key, env.configPath, width, height);
    if k.flow != Proceed then Pass(k.state, k.flow, Frame(None, None))
    else
      var d := DrainAll(k.state, msgs, env);
      var p := if d.updateRequired then UpdateStatus(d) else d;
      var frame := Frame(
        if d.updateRequired then Some(p.dtlist) else None,
        if d.updateRequired || d.statusUpdateRequired then Some(StatusLine(p.status, p.width)) else None);
      Pass(p.(updateRequired := false, statusUpdateRequired := false), Proceed, frame)
  }

  /** A pass with no key and no message, after a pass that cleared the
      flags, paints nothing and changes nothing. */
  lemma IdlePassIsInert(s: State, width: nat, height: nat, env: Env)
    requires Inv(s) && !s.updateRequired && !s.statusUpdateRequired
    ensures PassDefined(s, None, width, height, [], env)
    ensures OnePass(s, None, width, height, [], env) == Pass(s, Proceed, Frame(None, None))
  {
  }

  /** A key that moves through the feed list repaints it with the status
      showing the selected feed's URL cut to the terminal width. The
      painter needs a terminal at least one row high. */
  lemma FeedListRepaint(s: State, k: Keymap.KeyMap, width: nat, height: nat, env: Env)
    requires Inv(s) && s.view == Feeds && Synced(s) && (k == Keymap.Up || k == Keymap.Down)
    requires KeyDefined(s, k) && height >= 1
    ensures PassDefined(s, Some(k), width, height, [], env)
    ensures var r := OnePass(s, Some(k), width, height, [], env);
      r.frame.list == Some(r.state.dtlist) && Synced(r.state) &&
      r.frame.statusLine == Some(StatusLine(r.state.feeds.Current().url, width))
  {
    var t := OnKey(s, k, env.configPath, width, height).state;
    FeedKeyState(s, k, env.configPath, width, height);
    KeyPassRepaints(s, k, width, height, env);
    assert UpdateStatus(t).status == t.feeds.Current().url;
  }

  /** After Up or Down in a synced feed list, the state asks for a repaint
      that the status closure and the painter can carry out. */
  lemma FeedKeyState(s: State, k: Keymap.KeyMap, configPath: string, width: nat, height: nat)
    requires Inv(s) && s.view == Feeds && Synced(s) && (k == Keymap.Up || k == Keymap.Down)
    requires KeyDefined(s, k) && height >= 1
    ensures var o := OnKey(s, k, configPath, width, height);
      o.flow == Proceed && o.state.updateRequired && o.state.width == width && o.state.height == height &&
      o.state.view == Feeds && Synced(o.state) && StatusDefined(o.state) && RepaintDefined(o.state)
  {
    StepKeysMoveCursorCyclically(s, k, configPath, width, height);
  }

  /** A pass with a key and no message, whose key asks for a repaint that
      can be carried out, paints the display list and the refreshed status. */
  lemma KeyPassRepaints(s: State, k: Keymap.KeyMap, width: nat, height: nat, env: Env)
    requires Inv(s) && KeyDefined(s, k)
    requires var o := OnKey(s, k, env.configPath, width, height);
      o.flow == Proceed && o.state.updateRequired && StatusDefined(o.state) && RepaintDefined(o.state)
    ensures PassDefined(s, Some(k), width, height, [], env)
    ensures var t := OnKey(s, k, env.configPath, width, height).state;
      var u := UpdateStatus(t);
      OnePass(s, Some(k), width, height, [], env) ==
        Pass(u.(updateRequired := false, statusUpdateRequired := false), Proceed,
             Frame(Some(t.dtlist), Some(StatusLine(u.status, t.width))))
  {
    var o := OnKey(s, k, env.configPath, width, height);
    assert AfterKey(s, Some(k), env.configPath, width, height) == o;
    assert DrainAll(o.state, [], env) == o.state;
  }

  /** A header cursor left past a shorter header list by a Headers message
      makes the next 'h' panic in the painter: the window would start past
      the end of the list. */
  lemma StaleHeaderCursorPanics(s: State, env: Env)
    requires Inv(s) && s.view == Log && |s.headers.things| == 5 && s.headers.selectedIndex == 20
    ensures !PassDefined(s, Some(Keymap.Headers), 80, 10, [], env)
  {
    OnViewKey(s, Keymap.Headers, env.configPath, 80, 10);
  }

  /** A list repaint on a terminal of height 0 panics in the painter. */
  lemma ZeroHeightRepaintPanics(s: State, env: Env)
    requires Inv(s) && s.height == 0 && s.updateRequired
    ensures !PassDefined(s, None, s.width, s.height, [], env)
  {
  }

  /** With three feeds on display, End selects the third and Home the first,
      and the feed cursor follows. */
  lemma ThreeFeedsEndThenHome(s: State, configPath: string, width: nat, height: nat)
    requires Inv(s) && s.view == Feeds && |s.feeds.things| == 3 && Synced(s)
    ensures var r1 := OnKey(s, Keymap.End, configPath, width, height).state;
      r1.dtlist.selectedIndex == 2 && r1.feeds.selectedIndex == 2 &&
      var r2 := OnKey(r1, Keymap.Home, configPath, width, height).state;
      r2.dtlist.selectedIndex == 0 && r2.feeds.selectedIndex == 0
  {
  }
}
